=== FILE: README.md ===
# Graph container: a Dafny model

This project models the graph container of inferno
(`inferno/extensions/containers/graph.py`). The container lets a caller assemble
a network from named computational units, wire them with directed edges,
declare input and output nodes, and run the whole assembly as one callable unit
in a single forward pass.

What is modelled:

- **The ordered graph** (`Digraph`). The ordered directed graph underneath
  (`NNGraph`) is a datatype with these parts:
  - node names in insertion order;
  - a role-flag map (`is_input_node`, `is_output_node`);
  - edges in insertion order, without duplicates;
  - the registry of units attached to node names. In the source these are the
    sub-modules registered on the container.

  In-edges and out-edges of a node are filtered from the edge sequence, so their
  order is the order the edges were added, as the ordered adjacency dictionaries
  of `NNGraph` give it. Re-adding a node merges its attributes and keeps its
  position. Re-adding an edge keeps its position.
- **Acyclicity** (`Topology`). The acyclicity test is an executable
  source-peeling procedure. It is proved to return true exactly when some
  topological order exists.
- **Queries, validity and construction** (`Registry`):
  - the introspection queries;
  - the validity test and the validity assertion, with the assertion's order of
    checks and the node it names;
  - the four construction calls. Edge insertion is validated after the edge is
    inserted. A failed validation leaves the edge in place, and the model
    returns the graph together with the error (`Step`).
- **Running one node** (`Routing`). `forward_through_node` gathers inputs from
  in-edge payloads or from one external value. It calls the unit and routes the
  outputs onto the out-edges:
  - one output is replicated onto every out-edge;
  - any other count must equal the out-degree;
  - a sink keeps its outputs.

  Payloads live in a side table `map<Edge, V>` that is threaded through the
  calls. This is equivalent to the source's edge attributes, because payloads
  never influence structure.
- **A reference meaning for the pass** (`Semantics`). It defines what every node
  emits, by recursion along a topological order. It is proved independent of
  the order chosen.
- **The forward pass** (`Engine`). `forward` first asserts validity and checks
  the argument count. An argument that is None is passed on as "no input", just
  as the source does, and that input node then fails as a source without
  input. It then seeds the input nodes in input order and runs the interior
  nodes along a topological order. Finally it reads each output
  node's in-edge payloads and clears the payloads. It is proved to agree with
  the reference meaning. So its result and its failure verdict depend neither
  on the topological order supplied nor on payloads left behind by an earlier
  pass.
- **Runs of construction calls** (`Construction`). These lemmas say when a run
  of construction calls ends in a valid graph, and when it cannot.

External pieces become parameters:

- networkx's `topological_sort` is the parameter `ord` of `Engine.Forward`. It
  is required to be a topological order whenever the graph is acyclic.
- A unit is a total function `seq<V> -> seq<V>` on an arbitrary value type `V`.
  Its outputs are already normalised to a sequence, as `to_iterable` does.
- python_utils is not part of this model. `Routing.ToIterable` and
  `Routing.FromIterable` state the behaviour assumed of `to_iterable` and
  `from_iterable`:
  - a sequence passes through and a lone value becomes a singleton;
  - a singleton is unwrapped and anything else stays a sequence.

Behaviour a caller might not expect, which the model keeps as the code has it:

- Only edge insertion revalidates (graph.py:274-278). `add_input_node`
  (graph.py:227-229), `add_output_node` without `previous` (graph.py:246-247)
  and `add_node` without `previous` (graph.py:204-207) never check anything.
  Re-declaring an existing name merges the role into its attributes. So "every
  successful run of construction calls leaves a valid graph" holds only when
  every node call introduces a new name
  (`Construction.FreshConstructionStaysValid`). It fails otherwise
  (`Construction.RedeclaredInputBreaksValidity`,
  `Construction.RedeclaredOutputBreaksValidity`).
- `add_edge` inserts the edge before it asserts validity (graph.py:276-277). A
  rejected edge stays, and from then on every edge insertion fails
  (`Construction.InvalidityIsPermanent`). A list `previous` is added one edge
  at a time (graph.py:208-209), so a failure leaves the edges added before it.
- `forward` clears payloads only at the end of a successful pass
  (graph.py:349). A failing node leaves the payloads written before it.
- A node may carry both roles, since adding a node merges its attributes
  (graph.py:228, 246). Only the validity assertion at the start of `forward`
  rejects such a node (graph.py:175-182, `Registry.AssertedGraphSeparatesRoles`).
- The validity test checks only that outputs are sinks and inputs are sources
  (graph.py:162-169); the TODO at graph.py:167 notes the missing check that
  only inputs are sources and only outputs are sinks. A plain node without
  producers passes it, and the pass then fails at that node with
  `SourceWithoutInput` (graph.py:294-295).

## Model

| member | source | states |
|---|---|---|
| Digraph.Empty | inferno/extensions/containers/graph.py:68-69 | a new container holds no nodes and no edges and satisfies the representation invariant |
| Digraph.InEdges | inferno/extensions/containers/graph.py:297-299 | the in-edges of a node are exactly the graph's edges ending at it, listed in the order the edges were added |
| Digraph.OutEdges | inferno/extensions/containers/graph.py:308 | the out-edges of a node are exactly the graph's edges leaving it, listed in the order the edges were added |
| Digraph.InDegreeCounts | inferno/extensions/containers/graph.py:106 | the in-degree of a node is the number of distinct edges ending at it |
| Digraph.OutDegreeCounts | inferno/extensions/containers/graph.py:128 | the out-degree of a node is the number of distinct edges starting at it |
| Digraph.DegreeZero | inferno/extensions/containers/graph.py:105-106 | in-degree (out-degree) zero holds exactly when no edge ends (starts) at the node |
| Digraph.MergeNode | inferno/extensions/containers/graph.py:228 | adding a node appends a new name and keeps an existing one in place; the given role flags are OR-ed into its attributes, and no other node's roles, no edge and no unit change |
| Digraph.InsertEdge | inferno/extensions/containers/graph.py:276 | inserting an edge between existing nodes adds exactly that edge, appended if new and left in place if present; nodes, roles and units are unchanged |
| Topology.FilterEdgesForward | inferno/extensions/containers/graph.py:336-337 | removing names from a sequence in which every edge points forward keeps every edge pointing forward |
| Topology.PeelOrder | inferno/extensions/containers/graph.py:162 | source-peeling returns an order in which every edge points forward, or fails only when no such order exists |
| Topology.IsDirectedAcyclic | inferno/extensions/containers/graph.py:174 | the DAG test is true exactly when the graph has a topological order |
| Topology.AcyclicWithoutEdge | inferno/extensions/containers/graph.py:276-277 | an inserted edge can only destroy acyclicity: if the graph with the edge is acyclic, so is the graph without it |
| Registry.IsNodeInGraph | inferno/extensions/containers/graph.py:84 | true exactly for the names that have been added as nodes |
| Registry.IsSourceNode | inferno/extensions/containers/graph.py:105-106 | fails with UnknownNode for a name not in the graph; otherwise true exactly when no edge ends at the node |
| Registry.IsSinkNode | inferno/extensions/containers/graph.py:127-128 | fails with UnknownNode for a name not in the graph; otherwise true exactly when no edge starts at the node |
| Registry.OutputNodes | inferno/extensions/containers/graph.py:141-142 | exactly the nodes flagged as outputs, each once, in node insertion order |
| Registry.InputNodes | inferno/extensions/containers/graph.py:155-156 | exactly the nodes flagged as inputs, each once, in node insertion order |
| Registry.OutputDegrees | inferno/extensions/containers/graph.py:164 | the per-output degree checks are equivalent to "no edge leaves an output node" and "an edge enters every output node" |
| Registry.InputDegrees | inferno/extensions/containers/graph.py:166 | the per-input degree checks are equivalent to "no edge enters an input node" and "an edge leaves every input node" |
| Registry.GraphIsValid | inferno/extensions/containers/graph.py:162-170 | true exactly when the graph is acyclic, no output node has an out-edge and no input node has an in-edge |
| Registry.CheckOutputs | inferno/extensions/containers/graph.py:175-178 | passes exactly when every listed output is a sink with an in-edge; a failure names a listed output with an out-edge (OutputNotSink) or a sink without an in-edge (OutputIsSource) |
| Registry.OutputCheckNamesFirst | inferno/extensions/containers/graph.py:175-178 | every output listed before the one the check names is a sink with an in-edge, so the check reports the first offender |
| Registry.CheckInputs | inferno/extensions/containers/graph.py:179-182 | passes exactly when every listed input is a source with an out-edge; a failure names a listed input with an in-edge (InputNotSource) or a source without an out-edge (InputIsSink) |
| Registry.InputCheckNamesFirst | inferno/extensions/containers/graph.py:179-182 | every input listed before the one the check names is a source with an out-edge, so the check reports the first offender |
| Registry.AssertGraphIsValid | inferno/extensions/containers/graph.py:174-182 | passes exactly when the graph is valid and every output has a producer and every input a consumer; it fails with NotADag exactly when the graph has a cycle |
| Registry.AssertionNamesCulprit | inferno/extensions/containers/graph.py:175-182 | each failure of the assertion names a declared output or input node that breaks the very rule the error stands for |
| Registry.AssertedGraphSeparatesRoles | inferno/extensions/containers/graph.py:175-182 | in a graph that passes the assertion no node is both an input and an output |
| Registry.AddEdge | inferno/extensions/containers/graph.py:274-278 | an unknown endpoint fails with UnknownNode and changes nothing; otherwise the edge is appended unless already present and kept, and the call succeeds exactly when the resulting graph is valid (InvalidGraph otherwise) |
| Seqs.AppendNewMembers | inferno/extensions/containers/graph.py:276 | after inserting edges in order without duplicates, an edge is present exactly when it was present before or was inserted |
| Registry.AddEdgesTo | inferno/extensions/containers/graph.py:207-209 | adds an edge from each name of `previous`, in order: on success the edge sequence is the old one followed by each edge from `previous` to the target not already present, in the order of `previous`, and a non-empty run leaves a valid graph; a failure happens at a position `k` whose predecessors all went through (their endpoints are nodes and the graph holding their edges is valid), names the first unknown endpoint there or is the failed validity check, and leaves exactly the old edges followed by those from `previous[..k]` and, after a failed validity check, the offending edge from `previous[k]` |
| Registry.Identity | inferno/extensions/containers/graph.py:16-19 | the pass-through unit returns its inputs unchanged |
| Registry.AddInputNode | inferno/extensions/containers/graph.py:227-229 | the name becomes a node flagged as input with the pass-through unit; no edge and no other node's roles or units change; no validation is done |
| Registry.AddOutputNode | inferno/extensions/containers/graph.py:246-250 | the name becomes a node flagged as output, no unit is registered, and it then gets the edges from `previous`, appended in that order when new; on success with a non-empty `previous` the graph is valid; a failure happens at the first name whose insertion fails, after the earlier ones went through, and leaves exactly the edges added before it, plus the offending edge when the validity check failed |
| Registry.AddNode | inferno/extensions/containers/graph.py:204-210 | registers the unit under the name, replacing an earlier one, adds the node if new without changing any role, then gets the edges from `previous`, appended in that order when new; on success with a non-empty `previous` the graph is valid; a failure happens at the first name whose insertion fails, after the earlier ones went through, and leaves exactly the edges added before it, plus the offending edge when the validity check failed |
| Routing.ToIterable | inferno/extensions/containers/graph.py:305 | a lone value becomes a one-element sequence holding it, and a sequence is kept as it is |
| Routing.FromIterable | inferno/extensions/containers/graph.py:321 | a lone value comes back exactly for a singleton, and wrapping the result again yields the original sequence |
| Routing.PackRoundTrip | inferno/extensions/containers/graph.py:347 | unwrapping after wrapping restores every returned value except a sequence holding a single value |
| Routing.UnitOf | inferno/extensions/containers/graph.py:305 | the unit registered under the name, or NoUnit when none is registered |
| Routing.Replicate | inferno/extensions/containers/graph.py:311 | repeating a value `k` times gives `k` entries, each that value |
| Routing.Route | inferno/extensions/containers/graph.py:307-317 | a sink keeps its outputs; otherwise routing succeeds exactly when there is one output or one per out-edge, and out-edge `i` receives the single output or output `i`; the failure names the node, the produced count and the out-degree |
| Routing.GatherFrom | inferno/extensions/containers/graph.py:297-299 | succeeds exactly when every listed edge carries a payload, giving the payloads in edge order; otherwise reports the first listed edge without a payload |
| Routing.GatherNamesFirst | inferno/extensions/containers/graph.py:297-299 | every edge listed before the one reported missing carries a payload, so the failure names the first edge the node would wait on |
| Routing.WriteAll | inferno/extensions/containers/graph.py:318-319 | afterwards edge `i` carries value `i` and every other edge keeps its payload or its absence |
| Routing.NodeInputs | inferno/extensions/containers/graph.py:292-303 | with an external value, the node (which must exist) gets that value alone; without one, an unknown name or a source fails, and otherwise the node gets its in-edge payloads in in-edge order, failing exactly when one is missing |
| Routing.ReturnsWhatItWrites | inferno/extensions/containers/graph.py:309-321 | a node that is not a sink returns the values it wrote onto its out-edges, in out-edge order, so a replicated value comes back once per out-edge |
| Routing.ForwardThroughNode | inferno/extensions/containers/graph.py:289-321 | on success the unit was called on the received inputs, the routed outputs sit on the node's out-edges and no other edge's payload changed; each failure is one of the source's failed assertions or lookups |
| Routing.ArityRule | inferno/extensions/containers/graph.py:307-317 | with inputs available and a unit registered, running a node fails exactly when it is not a sink and its unit returns neither one value nor one per out-edge |
| Routing.Broadcast | inferno/extensions/containers/graph.py:309-311 | a unit returning one value delivers that same value on every out-edge |
| Routing.PassThrough | inferno/extensions/containers/graph.py:300-311 | a node holding the pass-through unit, given an external value, succeeds and puts that value on every out-edge; with at most one out-edge it returns the value itself |
| Routing.StripEdges | inferno/extensions/containers/graph.py:285-287 | afterwards exactly the payloads of the listed edges are gone and every other payload is unchanged |
| Routing.ClearPayloads | inferno/extensions/containers/graph.py:284-287 | afterwards no edge of the graph carries a payload, payloads of edges outside the graph are kept, and nothing was added or changed |
| Semantics.PredecessorEarlier | inferno/extensions/containers/graph.py:334 | in a topological order the producer of every edge comes before its consumer |
| Semantics.Emitted | inferno/extensions/containers/graph.py:339-340 | in the reference pass a node that succeeds and has out-edges emits one value per out-edge, and no node fails for want of a payload |
| Semantics.Argument | inferno/extensions/containers/graph.py:331-332 | an input node is handed its own positional argument, which may be None, and any other node is handed no value |
| Semantics.Inputs | inferno/extensions/containers/graph.py:292-303 | in the reference pass a node without an external value that gets its inputs gets one per in-edge, and no failure is a missing payload |
| Semantics.Collect | inferno/extensions/containers/graph.py:297-299 | in the reference pass the values gathered from a list of in-edges are one per edge |
| Semantics.NoneArgumentFails | inferno/extensions/containers/graph.py:292-295 | in a valid graph an input node whose argument is None fails as a source without input, so the pass fails |
| Semantics.OutputValues | inferno/extensions/containers/graph.py:345-346 | an output node reads one reference value per in-edge |
| Semantics.ReferenceOutputs | inferno/extensions/containers/graph.py:342-351 | the reference result has one entry per output node, in output order, a lone entry unwrapped; entry `k` wraps the reference values on the in-edges of output `k` |
| Semantics.EmittedOrderFree | inferno/extensions/containers/graph.py:334 | what a node emits in the reference pass is the same along any two topological orders |
| Semantics.InputsOrderFree | inferno/extensions/containers/graph.py:334 | the inputs a node is called with in the reference pass are the same along any two topological orders |
| Semantics.CollectOrderFree | inferno/extensions/containers/graph.py:334 | the values gathered from in-edges in the reference pass are the same along any two topological orders |
| Semantics.OutputsOrderFree | inferno/extensions/containers/graph.py:342-351 | two topological orders along which every node emits the same values give the same result |
| Semantics.ReferenceOrderFree | inferno/extensions/containers/graph.py:334 | the reference pass succeeds along one topological order exactly when it succeeds along another, with the same result |
| Engine.InteriorOrder | inferno/extensions/containers/graph.py:336-337 | the nodes of the order that are neither inputs nor outputs, in the order's own order |
| Engine.InteriorOrderIsSchedule | inferno/extensions/containers/graph.py:334-337 | the non-input, non-output nodes of a topological order are each interior node once, with every edge between them pointing forward |
| Engine.CompleteMeansAllRunsSucceed | inferno/extensions/containers/graph.py:339-340 | the table of reference results covers every node the pass runs exactly when every such node succeeds in the reference pass |
| Engine.HoldsFrame | inferno/extensions/containers/graph.py:318-319 | running one node leaves the reference payloads on every other node's out-edges in place |
| Engine.EdgeMatches | inferno/extensions/containers/graph.py:298 | when a producer's out-edges carry its reference values, each of its edges carries the reference value of that edge |
| Engine.CollectMatches | inferno/extensions/containers/graph.py:297-299 | gathering payloads from in-edges whose producers carry their reference values succeeds and yields the reference inputs |
| Engine.InputsMatch | inferno/extensions/containers/graph.py:292-303 | the inputs a node receives in the pass are its inputs in the reference pass |
| Engine.StepMatches | inferno/extensions/containers/graph.py:289-321 | running a node succeeds exactly when it succeeds in the reference pass, fails with the reference error, and on success writes its reference values |
| Engine.RunNode | inferno/extensions/containers/graph.py:289-321 | running a node fails exactly when it fails in the reference pass, with the reference error and never for a missing payload; on success it and every node that held its reference values before still hold them |
| Engine.InputHasNoInEdges | inferno/extensions/containers/graph.py:179-180 | in a valid graph an input node has no in-edge |
| Engine.SeedInputs | inferno/extensions/containers/graph.py:331-332 | the input nodes run in input order, each with its own argument; either all of them then hold their reference values, or the nodes called are a prefix of the input nodes whose last one is the first to fail in the reference pass, with the error returned |
| Engine.ProducersHold | inferno/extensions/containers/graph.py:339-340 | when an interior node is reached along a topological order, every producer feeding it holds its reference values |
| Engine.InteriorOrderSnoc | inferno/extensions/containers/graph.py:336-337 | extending the order by one name extends the filtered interior order by that name exactly when it is interior |
| Engine.AllRunnersHold | inferno/extensions/containers/graph.py:331-340 | once the inputs and all interior nodes hold their reference values, every node the pass runs does |
| Engine.AfterRunAt | inferno/extensions/containers/graph.py:339-340 | after position `i` runs, the inputs and the interior nodes up to position `i` hold their reference values |
| Engine.RunAt | inferno/extensions/containers/graph.py:339-340 | runs the node at position `i` if it is interior; success keeps every earlier node holding and extends the trace; a failure appends that interior node to the trace, which stays a prefix of the interior order, the node fails in the reference pass with the error returned, and every node earlier in the trace succeeds there |
| Engine.RunInterior | inferno/extensions/containers/graph.py:334-340 | the interior nodes run in the order given; on success every node the pass runs holds its reference values; on failure the nodes called are a prefix of the interior order whose last one is the first to fail in the reference pass, with the error returned |
| Engine.OutputsMatch | inferno/extensions/containers/graph.py:343-346 | after a complete pass, the payloads on an output node's in-edges are its reference values |
| Engine.ResultsAreReference | inferno/extensions/containers/graph.py:347-351 | per-output results equal to the reference values assemble into the reference result |
| Engine.ReadOutputs | inferno/extensions/containers/graph.py:342-347 | one result per output node, in output order, each the in-edge payloads with a singleton unwrapped |
| Engine.FinishPass | inferno/extensions/containers/graph.py:342-351 | after a complete pass the returned value is the reference result and no edge carries a payload |
| Engine.RunPass | inferno/extensions/containers/graph.py:331-351 | on a valid graph the pass succeeds exactly when every node it runs succeeds in the reference pass; it then returns the reference result, leaves no payload, and has run the inputs and then the interior nodes in order; on failure the nodes called are a prefix of that call order whose last one is the first to fail in the reference pass, and the error is its reference error |
| Engine.Forward | inferno/extensions/containers/graph.py:323-351 | a failed validity assertion or a wrong argument count fails first with that error and touches no payload; otherwise the pass succeeds exactly when every node it runs succeeds in the reference pass; on success the result is the reference result, whatever the topological order and the leftover payloads, no payload remains, and each interior node ran once after its producers; a failure of the pass itself stops at the first node, in call order (inputs, then interior nodes along the order), that fails in the reference pass, with that node's reference error |
| Construction.Apply | inferno/extensions/containers/graph.py:204-278 | every construction call keeps the representation invariant |
| Construction.Build | inferno/extensions/containers/graph.py:204-278 | every run of construction calls keeps the representation invariant, and a successful run from a valid graph whose node calls each name a new node ends in a valid graph |
| Construction.EmptyIsValid | inferno/extensions/containers/graph.py:68-69 | a new container is valid |
| Construction.IsolatedNodeKeepsValidity | inferno/extensions/containers/graph.py:227-228 | adding a new node that no edge touches, with any roles, keeps a valid graph valid |
| Construction.FreshCallKeepsValidity | inferno/extensions/containers/graph.py:204-278 | a successful construction call on a valid graph whose node name is new keeps the graph valid |
| Construction.FreshConstructionStaysValid | inferno/extensions/containers/graph.py:204-278 | a successful run of construction calls from a valid graph, each node call naming a new node, ends in a valid graph |
| Construction.RedeclaredInputBreaksValidity | inferno/extensions/containers/graph.py:227-229 | re-declaring a node that has a producer as an input leaves an invalid graph |
| Construction.RedeclaredOutputBreaksValidity | inferno/extensions/containers/graph.py:246-250 | re-declaring a node that has a consumer as an output, without new edges, succeeds and leaves an invalid graph |
| Construction.MoreEdgesKeepDefects | inferno/extensions/containers/graph.py:276-277 | a graph whose edges include those of another with the same nodes and roles is valid only if the other one is |
| Construction.InvalidityIsPermanent | inferno/extensions/containers/graph.py:274-278 | once the graph is invalid every later edge insertion fails and leaves it invalid |
| Construction.FailurePositionUnique | inferno/extensions/containers/graph.py:207-209 | a failed run of edge insertions fails at exactly one position: no later position can also be the failing one, so the failure is the first insertion that goes wrong |

## Left out

- The torch module machinery is not modelled: `add_module`, the `isinstance(module, nn.Module)` check, and `Identity` as a torch module. A unit is a function value in a registry keyed by node name. `Identity` is the pass-through function.
- Unit lookup is by attribute name in the source (`getattr`). A node named like another attribute of the container, such as `forward`, would resolve to that attribute. The model looks names up only in the unit registry.
- Building the container from an existing networkx graph, and its factory assertions, are not modelled. A model graph always starts from `Digraph.Empty`.
- `apply_on_graph` is not modelled. It hands the internal graph to arbitrary caller code.
- networkx's `topological_sort` is a parameter of `Engine.Forward` rather than an algorithm. The result is proved independent of which topological order is supplied.
- python_utils is not part of this model. `to_iterable` and `from_iterable` are assumed to behave as `Routing.ToIterable` and `Routing.FromIterable` state. Treating a string `previous` as one name is part of that assumption.
- The numerical work of the units, exceptions raised inside a unit, and units with internal state are not modelled. A unit is a total, deterministic function.
- Registry.Identity: an argument is one value of `V`, with no list structure. In the source a list or tuple handed to an input node comes back from `Identity`, is split by `to_iterable` (graph.py:305) across the node's out-edges, or fails the out-degree assertion (graph.py:313). Here an input node always returns exactly one output, which is replicated.
- Error messages are not modelled. Each failed assertion or lookup is an `Error` constructor that carries the names and counts its message mentions.
- Engine.Forward: the contract does not say which payloads remain after a failure inside the pass. The source leaves the payloads written before the failing node.

=== FILE: construction.dfy ===
/**
 * Sequences of construction calls and what they guarantee. Only edge insertion
 * revalidates the graph, so a run of successful calls ends in a valid graph when
 * every node call introduces a new name; re-declaring an existing name with a
 * role merges the role in without any check and can leave an invalid graph.
 */
module Construction {
  import opened Wrappers
  import opened Seqs
  import opened Digraph
  import opened Topology
  import opened Errors
  import opened Registry

  /** One call of the construction interface. */
  datatype Call<!V> =
    | InputNodeCall(name: Name)
    | OutputNodeCall(name: Name, previous: seq<Name>)
    | NodeCall(name: Name, unit: Unit<V>, previous: seq<Name>)
    | EdgeCall(from: Name, to: Name)
  {
    predicate AddsNode() {
      !EdgeCall?
    }
  }

  function Apply<V>(g: Graph<V>, c: Call<V>): (r: Step<V>)
    requires WellFormed(g)
    ensures WellFormed(r.graph)
  {
    match c
    case InputNodeCall(name) => Step(AddInputNode(g, name), None)
    case OutputNodeCall(name, previous) => AddOutputNode(g, name, previous)
    case NodeCall(name, unit, previous) => AddNode(g, name, unit, previous)
    case EdgeCall(from, to) => AddEdge(g, from, to)
  }

  /** Performs the calls in order; the first failing call ends the run with its error. */
  function Build<V>(g: Graph<V>, calls: seq<Call<V>>): (r: Step<V>)
    requires WellFormed(g)
    ensures WellFormed(r.graph)
    ensures Valid(g) && NamesFresh(g, calls) && r.Ok() ==> Valid(r.graph)
    decreases |calls|
  {
    if calls == [] then Step(g, None)
    else
      var s := Apply(g, calls[0]);
      FreshCallKeepsValidity(g, calls[0]);
      if !s.Ok() then s else Build(s.graph, calls[1..])
  }

  /** Every node call of the run, as far as it gets, names a node not yet in the graph. */
  ghost predicate NamesFresh<V>(g: Graph<V>, calls: seq<Call<V>>)
    requires WellFormed(g)
    decreases |calls|
  {
    calls == [] ||
    (&& (calls[0].AddsNode() ==> calls[0].name !in g.nodes)
     && (Apply(g, calls[0]).Ok() ==> NamesFresh(Apply(g, calls[0]).graph, calls[1..])))
  }

  lemma EmptyIsValid<V>()
    ensures Valid(Empty<V>())
  {
    assert IsTopologicalOrder(Empty<V>(), []);
  }

  /** Adding a node that no edge touches, with any flags, keeps a valid graph valid. */
  lemma IsolatedNodeKeepsValidity<V>(g: Graph<V>, h: Graph<V>, n: Name)
    requires WellFormed(g) && Valid(g) && n !in g.nodes
    requires h.nodes == g.nodes + [n]
    requires forall e :: e in h.edges <==> e in g.edges
    requires forall m | m != n :: (IsInput(h, m) <==> IsInput(g, m)) && (IsOutput(h, m) <==> IsOutput(g, m))
    ensures Valid(h)
  {
    var o :| IsTopologicalOrder(g, o);
    var o' := o + [n];
    assert Distinct(o') by {
      forall i, j | 0 <= i < j < |o'|
        ensures o'[i] != o'[j]
      {
        if j == |o| {
          assert o[i] in o;
        }
      }
    }
    forall i, j | 0 <= i < |o'| && 0 <= j < |o'| && Edge(o'[i], o'[j]) in h.edges
      ensures i < j
    {
      assert Edge(o'[i], o'[j]) in g.edges;
      if i < |o| && j < |o| {
        assert o'[i] == o[i] && o'[j] == o[j];
      }
    }
    assert IsTopologicalOrder(h, o');
  }

  /** A node call with a fresh name that succeeds keeps a valid graph valid. */
  lemma FreshCallKeepsValidity<V>(g: Graph<V>, c: Call<V>)
    requires WellFormed(g)
    ensures Valid(g) && (c.AddsNode() ==> c.name !in g.nodes) && Apply(g, c).Ok() ==> Valid(Apply(g, c).graph)
  {
    var r := Apply(g, c);
    if Valid(g) && (c.AddsNode() ==> c.name !in g.nodes) && r.Ok() {
      match c
      case InputNodeCall(name) =>
        IsolatedNodeKeepsValidity(g, r.graph, name);
      case OutputNodeCall(name, previous) =>
        if previous == [] {
          IsolatedNodeKeepsValidity(g, r.graph, name);
        }
      case NodeCall(name, unit, previous) =>
        if previous == [] {
          IsolatedNodeKeepsValidity(g, r.graph, name);
        }
      case EdgeCall(from, to) =>
    }
  }

  /**
   * A run of construction calls from a valid graph, each node call naming a new
   * node, ends in a valid graph whenever every call succeeds.
   */
  lemma {:induction false} FreshConstructionStaysValid<V>(g: Graph<V>, calls: seq<Call<V>>)
    requires WellFormed(g) && Valid(g) && NamesFresh(g, calls)
    ensures Build(g, calls).Ok() ==> Valid(Build(g, calls).graph)
    decreases |calls|
  {
    if calls != [] {
      var s := Apply(g, calls[0]);
      FreshCallKeepsValidity(g, calls[0]);
      if s.Ok() {
        FreshConstructionStaysValid(s.graph, calls[1..]);
      }
    }
  }

  /**
   * Re-declaring a node that already has a producer as an input succeeds and
   * leaves an invalid graph: add_input_node never revalidates.
   */
  lemma RedeclaredInputBreaksValidity<V>(g: Graph<V>, e: Edge)
    requires WellFormed(g) && e in g.edges
    ensures !Valid(AddInputNode(g, e.dst))
  {
    var h := AddInputNode(g, e.dst);
    assert e in h.edges && IsInput(h, e.dst) && e.dst in h.nodes;
  }

  /**
   * Re-declaring a node that already has a consumer as an output, without new
   * edges, succeeds and leaves an invalid graph.
   */
  lemma RedeclaredOutputBreaksValidity<V>(g: Graph<V>, e: Edge)
    requires WellFormed(g) && e in g.edges
    ensures AddOutputNode(g, e.src, []).Ok() && !Valid(AddOutputNode(g, e.src, []).graph)
  {
    var h := AddOutputNode(g, e.src, []).graph;
    assert e in h.edges && IsOutput(h, e.src) && e.src in h.nodes;
  }

  /** A graph with the same nodes and flags and at least the same edges keeps every defect. */
  lemma MoreEdgesKeepDefects<V>(g: Graph<V>, h: Graph<V>)
    requires h.nodes == g.nodes && h.flags == g.flags
    requires forall e | e in g.edges :: e in h.edges
    ensures Valid(h) ==> Valid(g)
  {
    if Acyclic(h) {
      var o :| IsTopologicalOrder(h, o);
      assert IsTopologicalOrder(g, o);
    }
  }

  /**
   * Once the graph is invalid, every later edge insertion fails validation too:
   * an extra edge cannot remove a cycle, make an output a sink again or an input
   * a source again. A rejected edge therefore leaves the container unusable for
   * further edge insertions.
   */
  lemma InvalidityIsPermanent<V>(g: Graph<V>, from: Name, to: Name)
    requires WellFormed(g) && !Valid(g)
    ensures !AddEdge(g, from, to).Ok()
    ensures !Valid(AddEdge(g, from, to).graph)
  {
    var r := AddEdge(g, from, to);
    if from in g.nodes && to in g.nodes {
      MoreEdgesKeepDefects(g, r.graph);
    }
  }

  /**
   * A failed run of edge insertions fails at exactly one position, the first
   * insertion that goes wrong: once the insertions up to a later position are
   * known to have gone through, an earlier one cannot have failed.
   */
  lemma FailurePositionUnique<V>(es: seq<Edge>, previous: seq<Name>, to: Name, r: Step<V>, k: nat, m: nat)
    requires k < m < |previous|
    requires StopsAt(es, previous, to, r, k)
    ensures !StopsAt(es, previous, to, r, m)
  {
    if StopsAt(es, previous, to, r, m) {
      EarlierFailureIsValidity(es, previous, to, r, k, m);
      InsertionsGrow(es, previous, to, k + 1, m);
      MoreEdgesKeepDefects(r.graph, r.graph.(edges := AppendNew(es, EdgesInto(previous[..m], to))));
      assert false;
    }
  }

  /**
   * Proof helper: when a later position went through, an earlier failure cannot
   * be an unknown endpoint, so it is the validity check on the graph holding the
   * edges up to and including the earlier one.
   */
  lemma EarlierFailureIsValidity<V>(es: seq<Edge>, previous: seq<Name>, to: Name, r: Step<V>, k: nat, m: nat)
    requires k < m < |previous|
    requires StopsAt(es, previous, to, r, k) && WentThrough(es, previous, to, r, m)
    ensures r.error == Some(InvalidGraph) && !Valid(r.graph)
    ensures r.graph.edges == AppendNew(es, EdgesInto(previous[..k + 1], to))
  {
    assert previous[k] in previous[..m];
    assert previous[..k] + Offending(previous, r, k) == previous[..k + 1];
  }

  /** Proof helper: inserting the edges from a longer prefix of names yields every edge a shorter one does. */
  lemma InsertionsGrow(es: seq<Edge>, previous: seq<Name>, to: Name, i: nat, m: nat)
    requires i <= m <= |previous|
    ensures forall e | e in AppendNew(es, EdgesInto(previous[..i], to)) :: e in AppendNew(es, EdgesInto(previous[..m], to))
  {
    var small := EdgesInto(previous[..i], to);
    var big := EdgesInto(previous[..m], to);
    assert small == big[..i];
    forall e | e in AppendNew(es, small)
      ensures e in AppendNew(es, big)
    {
      AppendNewMembers(es, small, e);
      AppendNewMembers(es, big, e);
    }
  }
}

=== FILE: digraph.dfy ===
/**
 * The ordered directed graph underneath the container: node names in insertion
 * order, each with its role flags, edges in insertion order without duplicates,
 * and the registry of units attached to node names.
 */
module Digraph {
  import opened Seqs

  type Name = string

  /** A directed edge from producer `src` to consumer `dst`; the pair identifies the edge. */
  datatype Edge = Edge(src: Name, dst: Name)

  /**
   * A computational unit: an ordered sequence of inputs to an ordered sequence of
   * outputs (a unit returning one value is seen as returning a singleton).
   */
  type Unit<!V> = seq<V> -> seq<V>

  /** The role attributes stored on a node; an absent attribute reads as false. */
  datatype Flags = Flags(isInput: bool, isOutput: bool)

  /**
   * The structure of a graph container. `nodes` and `edges` keep insertion order
   * (the ordered dictionaries of the graph class); `units` maps a node name to the
   * unit registered under that name.
   */
  datatype Graph<!V> = Graph(
    nodes: seq<Name>,
    flags: map<Name, Flags>,
    edges: seq<Edge>,
    units: map<Name, Unit<V>>)

  /** The representation invariant every reachable graph keeps. */
  ghost predicate WellFormed<V>(g: Graph<V>) {
    && Distinct(g.nodes)
    && (forall n :: n in g.flags <==> n in g.nodes)
    && Distinct(g.edges)
    && (forall e | e in g.edges :: e.src in g.nodes && e.dst in g.nodes)
    && (forall n | n in g.units :: n in g.nodes)
  }

  /** A freshly constructed, empty graph. */
  function Empty<V>(): (g: Graph<V>)
    ensures WellFormed(g)
    ensures g.nodes == [] && g.edges == []
  {
    Graph([], map[], [], map[])
  }

  predicate IsInput<V>(g: Graph<V>, n: Name) {
    n in g.flags && g.flags[n].isInput
  }

  predicate IsOutput<V>(g: Graph<V>, n: Name) {
    n in g.flags && g.flags[n].isOutput
  }

  /** The edges into `n`, in the order they were added. */
  function InEdges<V>(g: Graph<V>, n: Name): (r: seq<Edge>)
    ensures forall e :: e in r <==> e in g.edges && e.dst == n
    ensures IsSubsequence(r, g.edges)
  {
    Filter((e: Edge) => e.dst == n, g.edges)
  }

  /** The edges out of `n`, in the order they were added. */
  function OutEdges<V>(g: Graph<V>, n: Name): (r: seq<Edge>)
    ensures forall e :: e in r <==> e in g.edges && e.src == n
    ensures IsSubsequence(r, g.edges)
  {
    Filter((e: Edge) => e.src == n, g.edges)
  }

  function InDegree<V>(g: Graph<V>, n: Name): nat {
    |InEdges(g, n)|
  }

  function OutDegree<V>(g: Graph<V>, n: Name): nat {
    |OutEdges(g, n)|
  }

  /** The in-degree counts the distinct edges that end at the node (its predecessors). */
  lemma InDegreeCounts<V>(g: Graph<V>, n: Name)
    requires WellFormed(g)
    ensures InDegree(g, n) == |set e | e in g.edges && e.dst == n|
  {
    var r := InEdges(g, n);
    SubsequenceDistinct(r, g.edges);
    DistinctCard(r);
    assert (set e | e in r) == set e | e in g.edges && e.dst == n;
  }

  /** The out-degree counts the distinct edges that start at the node (its successors). */
  lemma OutDegreeCounts<V>(g: Graph<V>, n: Name)
    requires WellFormed(g)
    ensures OutDegree(g, n) == |set e | e in g.edges && e.src == n|
  {
    var r := OutEdges(g, n);
    SubsequenceDistinct(r, g.edges);
    DistinctCard(r);
    assert (set e | e in r) == set e | e in g.edges && e.src == n;
  }

  /** A degree is zero exactly when no edge has the node at that end. */
  lemma DegreeZero<V>(g: Graph<V>)
    ensures forall n :: OutDegree(g, n) == 0 <==> forall e | e in g.edges :: e.src != n
    ensures forall n :: InDegree(g, n) == 0 <==> forall e | e in g.edges :: e.dst != n
  {
    forall n
      ensures OutDegree(g, n) == 0 <==> forall e | e in g.edges :: e.src != n
      ensures InDegree(g, n) == 0 <==> forall e | e in g.edges :: e.dst != n
    {
      var o := OutEdges(g, n);
      var i := InEdges(g, n);
      if o != [] { assert o[0] in o; }
      if i != [] { assert i[0] in i; }
    }
  }

  lemma AdjacencyDistinct<V>(g: Graph<V>, n: Name)
    requires WellFormed(g)
    ensures Distinct(InEdges(g, n)) && Distinct(OutEdges(g, n))
  {
    SubsequenceDistinct(InEdges(g, n), g.edges);
    SubsequenceDistinct(OutEdges(g, n), g.edges);
  }

  /**
   * Adding a node with attributes: a new name is appended; an existing name keeps
   * its position and has the given flags merged into its attributes.
   */
  function MergeNode<V>(g: Graph<V>, n: Name, input: bool, output: bool): (r: Graph<V>)
    requires WellFormed(g)
    ensures WellFormed(r)
    ensures r.edges == g.edges && r.units == g.units
    ensures n in r.nodes
    ensures n in g.nodes ==> r.nodes == g.nodes
    ensures n !in g.nodes ==> r.nodes == g.nodes + [n]
    ensures IsInput(r, n) <==> input || IsInput(g, n)
    ensures IsOutput(r, n) <==> output || IsOutput(g, n)
    ensures forall m | m != n :: (IsInput(r, m) <==> IsInput(g, m)) && (IsOutput(r, m) <==> IsOutput(g, m))
  {
    if n in g.flags then
      var f := g.flags[n];
      g.(flags := g.flags[n := Flags(f.isInput || input, f.isOutput || output)])
    else
      assert Distinct(g.nodes + [n]) by {
        forall i, j | 0 <= i < j < |g.nodes| + 1
          ensures (g.nodes + [n])[i] != (g.nodes + [n])[j]
        {
          if j == |g.nodes| {
            assert g.nodes[i] in g.nodes;
          }
        }
      }
      g.(nodes := g.nodes + [n], flags := g.flags[n := Flags(input, output)])
  }

  /**
   * Inserting an edge between existing nodes: a new pair is appended, an existing
   * pair keeps its position.
   */
  function InsertEdge<V>(g: Graph<V>, e: Edge): (r: Graph<V>)
    requires WellFormed(g)
    requires e.src in g.nodes && e.dst in g.nodes
    ensures WellFormed(r)
    ensures r.nodes == g.nodes && r.flags == g.flags && r.units == g.units
    ensures forall x :: x in r.edges <==> x in g.edges || x == e
    ensures r.edges == if e in g.edges then g.edges else g.edges + [e]
  {
    if e in g.edges then g
    else
      assert Distinct(g.edges + [e]) by {
        forall i, j | 0 <= i < j < |g.edges| + 1
          ensures (g.edges + [e])[i] != (g.edges + [e])[j]
        {
          if j == |g.edges| {
            assert g.edges[i] in g.edges;
          }
        }
      }
      g.(edges := g.edges + [e])
  }
}

=== FILE: engine.dfy ===
/**
 * The forward pass: validate, check the argument count, seed each input node with
 * its argument, run the interior nodes along a topological order, read the
 * payloads on each output node's in-edges, and clear the payloads. The pass is
 * proved to agree with the reference meaning, so its result does not depend on
 * the topological order supplied nor on payloads left by an earlier pass.
 *
 * The loops do not talk about the reference meaning directly: they track a ghost
 * table `ref` holding what each node emits in the reference pass (nodes that
 * fail there are absent), tied to `Emitted` once by `RefTable`.
 */
module Engine {
  import opened Wrappers
  import opened Seqs
  import opened Digraph
  import opened Topology
  import opened Errors
  import opened Registry
  import opened Routing
  import opened Semantics

  /** Neither an input nor an output: a node the pass runs without an external value. */
  predicate IsInterior<V>(g: Graph<V>, n: Name) {
    !IsInput(g, n) && !IsOutput(g, n)
  }

  /** Each interior node exactly once, with the source of every edge between them first. */
  ghost predicate IsSchedule<V>(g: Graph<V>, s: seq<Name>) {
    && Distinct(s)
    && (forall n :: n in s <==> n in g.nodes && IsInterior(g, n))
    && EdgesForward(g.edges, s)
  }

  /** The pass may start: the graph passes the validity assertion and there is one argument per input. */
  ghost predicate Ready<V>(g: Graph<V>, xs: seq<Option<V>>)
    requires WellFormed(g)
  {
    AssertGraphIsValid(g).Pass? && |xs| == |InputNodes(g)|
  }

  /** `IsInterior` as a test on names, for filtering. */
  function InteriorTest<V>(g: Graph<V>): Name -> bool {
    (n: Name) => IsInterior(g, n)
  }

  /** The interior nodes in the order `ord` lists them. */
  function InteriorOrder<V>(g: Graph<V>, ord: seq<Name>): (r: seq<Name>)
    ensures forall n :: n in r <==> n in ord && IsInterior(g, n)
    ensures IsSubsequence(r, ord)
  {
    Filter(InteriorTest(g), ord)
  }

  /** The interior nodes of a topological order form a schedule. */
  lemma InteriorOrderIsSchedule<V>(g: Graph<V>, ord: seq<Name>)
    requires IsTopologicalOrder(g, ord)
    ensures IsSchedule(g, InteriorOrder(g, ord))
  {
    SubsequenceDistinct(InteriorOrder(g, ord), ord);
    FilterEdgesForward(InteriorTest(g), g.edges, ord);
  }

  /** `ref` records, for every node, what it emits in the reference pass, and omits the nodes that fail there. */
  ghost predicate RefTable<V>(g: Graph<V>, xs: seq<Option<V>>, ord: seq<Name>, ref: map<Name, seq<V>>)
    requires Frame(g, xs, ord)
  {
    && (forall u | u in ref :: u in g.nodes)
    && forall u {:trigger Emitted(g, xs, ord, u)} | u in g.nodes ::
         && (u in ref <==> Emitted(g, xs, ord, u).Success?)
         && (u in ref ==> ref[u] == Emitted(g, xs, ord, u).value)
  }

  ghost function ReferenceTable<V>(g: Graph<V>, xs: seq<Option<V>>, ord: seq<Name>): (ref: map<Name, seq<V>>)
    requires Frame(g, xs, ord)
    ensures RefTable(g, xs, ord, ref)
  {
    map u | u in g.nodes && Emitted(g, xs, ord, u).Success? :: Emitted(g, xs, ord, u).value
  }

  /** Every node the pass runs has an entry. */
  ghost predicate Complete<V>(g: Graph<V>, ref: map<Name, seq<V>>) {
    forall u | u in g.nodes && Runs(g, u) :: u in ref
  }

  lemma CompleteMeansAllRunsSucceed<V>(g: Graph<V>, xs: seq<Option<V>>, ord: seq<Name>, ref: map<Name, seq<V>>)
    requires Frame(g, xs, ord) && RefTable(g, xs, ord, ref)
    ensures Complete(g, ref) <==> AllRunsSucceed(g, xs, ord)
  {
    if Complete(g, ref) {
      forall u | u in g.nodes && Runs(g, u)
        ensures Emitted(g, xs, ord, u).Success?
      {
        assert u in ref;
      }
    }
    if AllRunsSucceed(g, xs, ord) {
      forall u | u in g.nodes && Runs(g, u)
        ensures u in ref
      {
        assert Emitted(g, xs, ord, u).Success?;
      }
    }
  }

  /** `trace` is non-empty, its last node has no entry in `ref` and every node before it has one. */
  ghost predicate StoppedAt<V>(g: Graph<V>, ref: map<Name, seq<V>>, trace: seq<Name>) {
    && trace != []
    && (forall u | u in trace :: u in g.nodes)
    && Last(trace) !in ref
    && forall j | 0 <= j < |trace| - 1 :: trace[j] in ref
  }

  /**
   * The nodes of `trace` before its last one succeed in the reference pass and
   * the last one fails there with `e`: called in the order of `trace`, the last
   * node is the first to raise, and it raises `e`.
   */
  ghost predicate FailsLast<V>(g: Graph<V>, xs: seq<Option<V>>, ord: seq<Name>, trace: seq<Name>, e: Error)
    requires Frame(g, xs, ord)
  {
    && trace != []
    && (forall u | u in trace :: u in g.nodes)
    && Emitted(g, xs, ord, Last(trace)) == Failure(e)
    && forall j | 0 <= j < |trace| - 1 :: Emitted(g, xs, ord, trace[j]).Success?
  }

  /** Read through the reference table, a trace that stopped at a failing node is one that fails last. */
  lemma StoppedFailsLast<V>(g: Graph<V>, xs: seq<Option<V>>, ord: seq<Name>, ref: map<Name, seq<V>>,
                            trace: seq<Name>, e: Error)
    requires Frame(g, xs, ord) && RefTable(g, xs, ord, ref) && StoppedAt(g, ref, trace)
    requires Emitted(g, xs, ord, Last(trace)) == Failure(e)
    ensures FailsLast(g, xs, ord, trace, e)
  {
    forall j | 0 <= j < |trace| - 1
      ensures Emitted(g, xs, ord, trace[j]).Success?
    {
      assert trace[j] in trace && trace[j] in ref;
    }
  }

  /** Nodes that all have entries, run before a trace that stopped, leave it stopped at the same node. */
  lemma StoppedAfter<V>(g: Graph<V>, ref: map<Name, seq<V>>, s: seq<Name>, t: seq<Name>)
    requires forall u | u in s :: u in g.nodes && u in ref
    requires StoppedAt(g, ref, t)
    ensures StoppedAt(g, ref, s + t) && Last(s + t) == Last(t)
  {
    var st := s + t;
    forall j | 0 <= j < |st| - 1
      ensures st[j] in ref
    {
      if j < |s| {
        assert st[j] == s[j] && s[j] in s;
      } else {
        assert st[j] == t[j - |s|];
      }
    }
  }

  /** Node `u` has an entry and its out-edges carry the values recorded for it. */
  ghost predicate Holds<V>(g: Graph<V>, p: Payloads<V>, ref: map<Name, seq<V>>, u: Name) {
    && u in ref
    && OutDegree(g, u) <= |ref[u]|
    && forall i | 0 <= i < OutDegree(g, u) :: OutEdges(g, u)[i] in p && p[OutEdges(g, u)[i]] == ref[u][i]
  }

  /** Payloads written for `u` leave the out-edges of every other node as they were. */
  lemma HoldsFrame<V>(g: Graph<V>, p: Payloads<V>, p': Payloads<V>, ref: map<Name, seq<V>>, u: Name, w: Name)
    requires WellFormed(g) && u != w
    requires forall e | e !in OutEdges(g, u) :: (e in p' <==> e in p) && (e in p ==> p'[e] == p[e])
    requires Holds(g, p, ref, w)
    ensures Holds(g, p', ref, w)
  {
    forall i | 0 <= i < OutDegree(g, w)
      ensures OutEdges(g, w)[i] !in OutEdges(g, u)
    {
      assert OutEdges(g, w)[i] in OutEdges(g, w);
    }
  }

  /** An edge whose producer holds carries the value the reference pass places on it. */
  lemma EdgeMatches<V>(g: Graph<V>, xs: seq<Option<V>>, ord: seq<Name>, ref: map<Name, seq<V>>, p: Payloads<V>, e: Edge)
    requires Frame(g, xs, ord) && RefTable(g, xs, ord, ref) && e in g.edges
    requires Holds(g, p, ref, e.src)
    ensures Emitted(g, xs, ord, e.src).Success?
    ensures e in p && p[e] == EdgeValue(g, xs, ord, e)
  {
    assert e in OutEdges(g, e.src);
    var k := IndexOf(OutEdges(g, e.src), e);
    assert OutEdges(g, e.src)[k] == e;
  }

  /** When every producer of the edges `es` holds, reading their payloads gives the reference values. */
  lemma {:induction false} CollectMatches<V>(g: Graph<V>, xs: seq<Option<V>>, ord: seq<Name>, ref: map<Name, seq<V>>,
                                            p: Payloads<V>, u: Name, es: seq<Edge>)
    requires Frame(g, xs, ord) && RefTable(g, xs, ord, ref) && u in g.nodes
    requires forall e | e in es :: e in g.edges && e.dst == u
    requires forall e | e in es :: Holds(g, p, ref, e.src)
    ensures GatherFrom(p, es) == Collect(g, xs, ord, u, es)
    ensures GatherFrom(p, es).Success?
    decreases |es|
  {
    if es != [] {
      EdgeMatches(g, xs, ord, ref, p, es[0]);
      CollectMatches(g, xs, ord, ref, p, u, es[1..]);
    }
  }

  /** A node whose producers all hold is called with exactly the inputs of the reference pass. */
  lemma InputsMatch<V>(g: Graph<V>, xs: seq<Option<V>>, ord: seq<Name>, ref: map<Name, seq<V>>,
                       p: Payloads<V>, u: Name, input: Option<V>)
    requires Frame(g, xs, ord) && RefTable(g, xs, ord, ref) && u in g.nodes
    requires input == Argument(g, xs, u)
    requires input.None? ==> forall e | e in InEdges(g, u) :: Holds(g, p, ref, e.src)
    ensures NodeInputs(g, p, u, input) == Inputs(g, xs, ord, u)
  {
    if input.None? && InDegree(g, u) > 0 {
      CollectMatches(g, xs, ord, ref, p, u, InEdges(g, u));
    }
  }

  /**
   * Running a node whose producers all hold does what the reference pass says:
   * it succeeds exactly when the node has an entry, and then its out-edges hold.
   */
  lemma StepMatches<V>(g: Graph<V>, xs: seq<Option<V>>, ord: seq<Name>, ref: map<Name, seq<V>>,
                       p: Payloads<V>, u: Name, input: Option<V>)
    requires Frame(g, xs, ord) && RefTable(g, xs, ord, ref) && u in g.nodes
    requires input == Argument(g, xs, u)
    requires input.None? ==> forall e | e in InEdges(g, u) :: Holds(g, p, ref, e.src)
    ensures var r := ForwardThroughNode(g, p, u, input);
      && (r.Success? <==> u in ref)
      && (r.Failure? ==> r.error == Emitted(g, xs, ord, u).error)
      && (r.Success? ==> Holds(g, r.value.0, ref, u))
  {
    InputsMatch(g, xs, ord, ref, p, u, input);
    assert Emitted(g, xs, ord, u).Success? <==> u in ref;
  }

  /**
   * forward_through_node as the pass uses it: on success the node and every node
   * that held before hold afterwards; a failure is the node's reference failure.
   */
  method RunNode<V>(g: Graph<V>, ghost xs: seq<Option<V>>, ghost ord: seq<Name>, ghost ref: map<Name, seq<V>>,
                    p: Payloads<V>, u: Name, input: Option<V>)
    returns (p': Payloads<V>, err: Option<Error>)
    requires Frame(g, xs, ord) && RefTable(g, xs, ord, ref) && u in g.nodes
    requires input == Argument(g, xs, u)
    requires input.None? ==> forall e | e in InEdges(g, u) :: Holds(g, p, ref, e.src)
    ensures err.None? <==> u in ref
    ensures err.Some? ==> Emitted(g, xs, ord, u) == Failure(err.value)
    ensures err.Some? ==> !err.value.MissingPayload?
    ensures err.None? ==> Holds(g, p', ref, u)
    ensures err.None? ==> forall w | w != u && Holds(g, p, ref, w) :: Holds(g, p', ref, w)
  {
    var r := ForwardThroughNode(g, p, u, input);
    StepMatches(g, xs, ord, ref, p, u, input);
    if r.Failure? {
      return p, Some(r.error);
    }
    p', err := r.value.0, None;
    forall w | w != u && Holds(g, p, ref, w)
      ensures Holds(g, p', ref, w)
    {
      HoldsFrame(g, p, p', ref, u, w);
    }
  }

  /** In a valid graph an input node has no in-edge, so an input node given no value has nothing to read. */
  lemma InputHasNoInEdges<V>(g: Graph<V>, u: Name)
    requires WellFormed(g) && Valid(g) && u in InputNodes(g)
    ensures InEdges(g, u) == []
  {
    DegreeZero(g);
  }

  /** An input node without an entry, called after the input nodes before it, stops the trace there. */
  lemma SeedStopped<V>(g: Graph<V>, ref: map<Name, seq<V>>, p: Payloads<V>, names: seq<Name>, trace: seq<Name>, k: nat)
    requires k < |names| && |trace| == k && names[k] in g.nodes && names[k] !in ref
    requires forall n | n in names :: n in g.nodes
    requires forall j | 0 <= j < k :: trace[j] == names[j]
    requires forall j | 0 <= j < k :: Holds(g, p, ref, names[j])
    ensures StoppedAt(g, ref, trace + [names[k]])
    ensures trace + [names[k]] <= names
  {
    assert trace + [names[k]] == names[..k + 1];
    forall u | u in trace
      ensures u in g.nodes && u in ref
    {
      var j :| 0 <= j < k && trace[j] == u;
      assert names[j] in names && Holds(g, p, ref, names[j]);
    }
    StoppedAfter(g, ref, trace, [names[k]]);
  }

  /**
   * The first phase of forward: each input node is called with its own argument,
   * in input order (an argument that is None means no value, as in
   * forward_through_node). Either every input node then holds, or one of the
   * nodes the pass runs has no entry.
   */
  method SeedInputs<V>(g: Graph<V>, xs: seq<Option<V>>, ghost ord: seq<Name>, ghost ref: map<Name, seq<V>>, p0: Payloads<V>)
    returns (p: Payloads<V>, err: Option<Error>, trace: seq<Name>)
    requires Frame(g, xs, ord) && RefTable(g, xs, ord, ref) && Valid(g)
    ensures err.None? ==> trace == InputNodes(g)
    ensures err.None? ==> forall u | u in InputNodes(g) :: Holds(g, p, ref, u)
    ensures err.Some? ==> !Complete(g, ref) && !err.value.MissingPayload?
    ensures err.Some? ==> StoppedAt(g, ref, trace) && Emitted(g, xs, ord, Last(trace)) == Failure(err.value)
    ensures err.Some? ==> trace <= InputNodes(g)
  {
    var inputNodes := InputNodes(g);
    p := p0;
    trace := [];
    var k := 0;
    while k < |inputNodes|
      invariant 0 <= k <= |inputNodes|
      invariant |trace| == k && forall j | 0 <= j < k :: trace[j] == inputNodes[j]
      invariant forall j | 0 <= j < k :: Holds(g, p, ref, inputNodes[j])
    {
      var u := inputNodes[k];
      assert IndexOf(inputNodes, u) == k by {
        assert inputNodes[k] == u;
      }
      trace := trace + [u];
      InputHasNoInEdges(g, u);
      var p', e := RunNode(g, xs, ord, ref, p, u, xs[k]);
      if e.Some? {
        assert u in g.nodes && Runs(g, u) && u !in ref;
        SeedStopped(g, ref, p, inputNodes, trace[..k], k);
        assert trace == trace[..k] + [u];
        return p, e, trace;
      }
      forall j | 0 <= j <= k
        ensures trace[j] == inputNodes[j] && Holds(g, p', ref, inputNodes[j])
      {
        if j < k {
          assert inputNodes[j] != u && Holds(g, p, ref, inputNodes[j]);
        } else {
          assert j == k;
        }
      }
      p := p';
      k := k + 1;
    }
    err := None;
  }

  /** An interior node reached along the order finds every producer holding. */
  lemma ProducersHold<V>(g: Graph<V>, ord: seq<Name>, ref: map<Name, seq<V>>, p: Payloads<V>, i: nat)
    requires WellFormed(g) && Valid(g) && IsTopologicalOrder(g, ord) && i < |ord|
    requires forall u | u in InputNodes(g) :: Holds(g, p, ref, u)
    requires forall j | 0 <= j < i && IsInterior(g, ord[j]) :: Holds(g, p, ref, ord[j])
    ensures forall e | e in InEdges(g, ord[i]) :: Holds(g, p, ref, e.src)
  {
    forall e | e in InEdges(g, ord[i])
      ensures Holds(g, p, ref, e.src)
    {
      PredecessorEarlier(g, ord, e);
      ProducersRun(g, e);
      assert IndexOf(ord, e.dst) == i;
      if IsInput(g, e.src) {
        assert e.src in InputNodes(g);
      } else {
        assert ord[IndexOf(ord, e.src)] == e.src;
      }
    }
  }

  /** Walking one more position of the order appends that node when it is interior. */
  lemma InteriorOrderSnoc<V>(g: Graph<V>, ord: seq<Name>, i: nat)
    requires i < |ord|
    ensures InteriorOrder(g, ord[..i + 1]) ==
      InteriorOrder(g, ord[..i]) + if IsInterior(g, ord[i]) then [ord[i]] else []
  {
    var s := ord[..i];
    assert ord[..i + 1] == s + [ord[i]];
    FilterSnoc(InteriorTest(g), s, ord[i]);
  }

  /** Once the inputs and every interior node of the order hold, every node the pass runs holds. */
  lemma AllRunnersHold<V>(g: Graph<V>, ord: seq<Name>, ref: map<Name, seq<V>>, p: Payloads<V>)
    requires WellFormed(g) && IsTopologicalOrder(g, ord)
    requires forall u | u in InputNodes(g) :: Holds(g, p, ref, u)
    requires forall j | 0 <= j < |ord| && IsInterior(g, ord[j]) :: Holds(g, p, ref, ord[j])
    ensures forall u | u in g.nodes && Runs(g, u) :: Holds(g, p, ref, u)
  {
    forall u | u in g.nodes && Runs(g, u)
      ensures Holds(g, p, ref, u)
    {
      if !IsInput(g, u) {
        assert ord[IndexOf(ord, u)] == u;
      } else {
        assert u in InputNodes(g);
      }
    }
  }

  /** After the node at `ord[i]` runs, the inputs and the interior nodes up to position `i` hold. */
  lemma AfterRunAt<V>(g: Graph<V>, ord: seq<Name>, ref: map<Name, seq<V>>, p: Payloads<V>, p': Payloads<V>, i: nat)
    requires WellFormed(g) && IsTopologicalOrder(g, ord) && i < |ord| && IsInterior(g, ord[i])
    requires forall u | u in InputNodes(g) :: Holds(g, p, ref, u)
    requires forall j | 0 <= j < i && IsInterior(g, ord[j]) :: Holds(g, p, ref, ord[j])
    requires Holds(g, p', ref, ord[i])
    requires forall w | w != ord[i] && Holds(g, p, ref, w) :: Holds(g, p', ref, w)
    ensures forall u | u in InputNodes(g) :: Holds(g, p', ref, u)
    ensures forall j | 0 <= j < i + 1 && IsInterior(g, ord[j]) :: Holds(g, p', ref, ord[j])
  {
    forall u | u in InputNodes(g)
      ensures Holds(g, p', ref, u)
    {
      assert IsInput(g, u) && u != ord[i];
    }
    forall j | 0 <= j < i + 1 && IsInterior(g, ord[j])
      ensures Holds(g, p', ref, ord[j])
    {
      if j < i {
        assert ord[j] != ord[i] && Holds(g, p, ref, ord[j]);
      } else {
        assert j == i;
      }
    }
  }

  /** The interior nodes met before position `i` of the order all have entries. */
  lemma InteriorSoFarRan<V>(g: Graph<V>, ord: seq<Name>, ref: map<Name, seq<V>>, p: Payloads<V>, i: nat)
    requires IsTopologicalOrder(g, ord) && i <= |ord|
    requires forall j | 0 <= j < i && IsInterior(g, ord[j]) :: Holds(g, p, ref, ord[j])
    ensures forall u | u in InteriorOrder(g, ord[..i]) :: u in g.nodes && u in ref
  {
    forall u | u in InteriorOrder(g, ord[..i])
      ensures u in g.nodes && u in ref
    {
      var j :| 0 <= j < i && ord[..i][j] == u;
      assert ord[j] == u && ord[j] in ord;
    }
  }

  /** An interior node without an entry, run after those before it, stops the trace there. */
  lemma InteriorStopped<V>(g: Graph<V>, ord: seq<Name>, ref: map<Name, seq<V>>, p: Payloads<V>, i: nat)
    requires IsTopologicalOrder(g, ord) && i < |ord| && ord[i] !in ref
    requires forall j | 0 <= j < i && IsInterior(g, ord[j]) :: Holds(g, p, ref, ord[j])
    requires IsInterior(g, ord[i])
    ensures StoppedAt(g, ref, InteriorOrder(g, ord[..i]) + [ord[i]])
    ensures InteriorOrder(g, ord[..i]) + [ord[i]] <= InteriorOrder(g, ord)
  {
    InteriorOrderSnoc(g, ord, i);
    FilterPrefix(InteriorTest(g), ord, i + 1);
    InteriorSoFarRan(g, ord, ref, p, i);
    assert ord[i] in ord;
    StoppedAfter(g, ref, InteriorOrder(g, ord[..i]), [ord[i]]);
  }

  /**
   * One position of the second phase: the node at `ord[i]` is run when it is
   * interior, and everything that held before still holds.
   */
  method RunAt<V>(g: Graph<V>, ghost xs: seq<Option<V>>, ord: seq<Name>, ghost ref: map<Name, seq<V>>,
                  p: Payloads<V>, i: nat, trace: seq<Name>)
    returns (p': Payloads<V>, err: Option<Error>, trace': seq<Name>)
    requires Frame(g, xs, ord) && RefTable(g, xs, ord, ref) && Valid(g) && i < |ord|
    requires forall u | u in InputNodes(g) :: Holds(g, p, ref, u)
    requires forall j | 0 <= j < i && IsInterior(g, ord[j]) :: Holds(g, p, ref, ord[j])
    requires trace == InteriorOrder(g, ord[..i])
    ensures err.None? ==> forall u | u in InputNodes(g) :: Holds(g, p', ref, u)
    ensures err.None? ==> forall j | 0 <= j < i + 1 && IsInterior(g, ord[j]) :: Holds(g, p', ref, ord[j])
    ensures err.None? ==> trace' == InteriorOrder(g, ord[..i + 1])
    ensures err.Some? ==> IsInterior(g, ord[i]) && !Complete(g, ref) && !err.value.MissingPayload?
    ensures err.Some? ==> trace' == trace + [ord[i]] && ord[i] !in ref && trace' <= InteriorOrder(g, ord)
    ensures err.Some? ==> StoppedAt(g, ref, trace') && Emitted(g, xs, ord, ord[i]) == Failure(err.value)
  {
    var v := ord[i];
    InteriorOrderSnoc(g, ord, i);
    if !IsInterior(g, v) {
      return p, None, trace;
    }
    trace' := trace + [v];
    ProducersHold(g, ord, ref, p, i);
    p', err := RunNode(g, xs, ord, ref, p, v, None);
    if err.Some? {
      assert v in g.nodes && Runs(g, v) && v !in ref;
      InteriorStopped(g, ord, ref, p, i);
      return;
    }
    AfterRunAt(g, ord, ref, p, p', i);
  }

  /**
   * The second phase of forward: the order is walked once and every interior
   * node is called on the payloads of its in-edges. Either every node the pass
   * runs then holds, or one of them has no entry.
   */
  method RunInterior<V>(g: Graph<V>, ghost xs: seq<Option<V>>, ord: seq<Name>, ghost ref: map<Name, seq<V>>, p0: Payloads<V>)
    returns (p: Payloads<V>, err: Option<Error>, trace: seq<Name>)
    requires Frame(g, xs, ord) && RefTable(g, xs, ord, ref) && Valid(g)
    requires forall u | u in InputNodes(g) :: Holds(g, p0, ref, u)
    ensures err.None? ==> trace == InteriorOrder(g, ord)
    ensures err.None? ==> forall u | u in g.nodes && Runs(g, u) :: Holds(g, p, ref, u)
    ensures err.Some? ==> !Complete(g, ref) && !err.value.MissingPayload?
    ensures err.Some? ==> StoppedAt(g, ref, trace) && Emitted(g, xs, ord, Last(trace)) == Failure(err.value)
    ensures err.Some? ==> trace <= InteriorOrder(g, ord)
  {
    p := p0;
    trace := [];
    var i := 0;
    while i < |ord|
      invariant 0 <= i <= |ord|
      invariant trace == InteriorOrder(g, ord[..i])
      invariant forall u | u in InputNodes(g) :: Holds(g, p, ref, u)
      invariant forall j | 0 <= j < i && IsInterior(g, ord[j]) :: Holds(g, p, ref, ord[j])
    {
      p, err, trace := RunAt(g, xs, ord, ref, p, i, trace);
      if err.Some? {
        return;
      }
      i := i + 1;
    }
    assert ord[..i] == ord;
    AllRunnersHold(g, ord, ref, p);
    err := None;
  }

  /** Once every node the pass runs holds, an output node's in-edges carry its reference values. */
  lemma OutputsMatch<V>(g: Graph<V>, xs: seq<Option<V>>, ord: seq<Name>, ref: map<Name, seq<V>>, p: Payloads<V>, o: Name)
    requires Frame(g, xs, ord) && RefTable(g, xs, ord, ref) && Valid(g) && AllRunsSucceed(g, xs, ord)
    requires forall u | u in g.nodes && Runs(g, u) :: Holds(g, p, ref, u)
    ensures GatherFrom(p, InEdges(g, o)) == Success(OutputValues(g, xs, ord, o))
  {
    var es := InEdges(g, o);
    forall e | e in es
      ensures e in p && p[e] == EdgeValue(g, xs, ord, e)
    {
      ProducersRun(g, e);
      EdgeMatches(g, xs, ord, ref, p, e);
    }
    var vals := GatherFrom(p, es);
    var want := OutputValues(g, xs, ord, o);
    assert |vals.value| == |want|;
    forall i | 0 <= i < |want|
      ensures vals.value[i] == want[i]
    {
      assert vals.value[i] == p[es[i]] && es[i] in es;
    }
    assert vals.value == want;
  }

  /** Values read per output node, in output order, make up the reference result. */
  lemma ResultsAreReference<V>(g: Graph<V>, xs: seq<Option<V>>, ord: seq<Name>, results: seq<Packed<V>>)
    requires Frame(g, xs, ord) && Valid(g) && AllRunsSucceed(g, xs, ord)
    requires |results| == |OutputNodes(g)|
    requires forall q | 0 <= q < |results| :: results[q] == FromIterable(OutputValues(g, xs, ord, OutputNodes(g)[q]))
    ensures FromIterable(results) == ReferenceOutputs(g, xs, ord)
  {
    var outs := OutputNodes(g);
    assert results == seq(|outs|, k requires 0 <= k < |outs| => FromIterable(OutputValues(g, xs, ord, outs[k])));
  }

  /**
   * The third phase of forward: for each output node, in output order, the
   * payloads on its in-edges are read, a single value unwrapped. `want` holds
   * the values each output node's in-edges are known to carry.
   */
  method ReadOutputs<V>(g: Graph<V>, p: Payloads<V>, ghost want: seq<seq<V>>)
    returns (results: seq<Packed<V>>)
    requires WellFormed(g) && |want| == |OutputNodes(g)|
    requires forall q | 0 <= q < |want| :: GatherFrom(p, InEdges(g, OutputNodes(g)[q])) == Success(want[q])
    ensures |results| == |want|
    ensures forall q | 0 <= q < |results| :: results[q] == FromIterable(want[q])
  {
    var outputNodes := OutputNodes(g);
    results := [];
    var m := 0;
    while m < |outputNodes|
      invariant 0 <= m <= |outputNodes|
      invariant |results| == m
      invariant forall q | 0 <= q < m :: results[q] == FromIterable(want[q])
    {
      var vals := GatherFrom(p, InEdges(g, outputNodes[m]));
      assert vals == Success(want[m]);
      results := results + [FromIterable(vals.value)];
      forall q | 0 <= q < m + 1
        ensures results[q] == FromIterable(want[q])
      {
        if q == m {
          assert results[q] == FromIterable(vals.value);
        }
      }
      m := m + 1;
    }
  }

  /** Reads the outputs once every node the pass runs holds, then clears the payloads. */
  method FinishPass<V>(g: Graph<V>, ghost xs: seq<Option<V>>, ghost ord: seq<Name>, ghost ref: map<Name, seq<V>>, p: Payloads<V>)
    returns (p': Payloads<V>, value: Packed<Packed<V>>)
    requires Frame(g, xs, ord) && RefTable(g, xs, ord, ref) && Valid(g) && AllRunsSucceed(g, xs, ord)
    requires forall u | u in g.nodes && Runs(g, u) :: Holds(g, p, ref, u)
    ensures value == ReferenceOutputs(g, xs, ord)
    ensures forall e | e in g.edges :: e !in p'
  {
    var outputNodes := OutputNodes(g);
    ghost var want := seq(|outputNodes|, q requires 0 <= q < |outputNodes| => OutputValues(g, xs, ord, outputNodes[q]));
    forall q | 0 <= q < |want|
      ensures GatherFrom(p, InEdges(g, outputNodes[q])) == Success(want[q])
    {
      OutputsMatch(g, xs, ord, ref, p, outputNodes[q]);
    }
    var results := ReadOutputs(g, p, want);
    ResultsAreReference(g, xs, ord, results);
    p' := ClearPayloads(g, p);
    value := FromIterable(results);
  }

  /**
   * The pass proper, on a valid graph with one argument per input node: seed the
   * inputs, run the interior nodes, read the outputs, clear the payloads.
   */
  method RunPass<V>(g: Graph<V>, p0: Payloads<V>, xs: seq<Option<V>>, ord: seq<Name>)
    returns (p: Payloads<V>, outcome: Result<Packed<Packed<V>>, Error>, trace: seq<Name>)
    requires Frame(g, xs, ord) && Valid(g)
    ensures outcome.Success? <==> AllRunsSucceed(g, xs, ord)
    ensures outcome.Success? ==> outcome.value == ReferenceOutputs(g, xs, ord)
    ensures outcome.Success? ==> forall e | e in g.edges :: e !in p
    ensures outcome.Success? ==> trace == InputNodes(g) + InteriorOrder(g, ord)
    ensures outcome.Failure? ==> !outcome.error.MissingPayload?
    ensures outcome.Failure? ==> FailsLast(g, xs, ord, trace, outcome.error)
    ensures outcome.Failure? ==> trace <= InputNodes(g) + InteriorOrder(g, ord)
  {
    ghost var ref := ReferenceTable(g, xs, ord);
    CompleteMeansAllRunsSucceed(g, xs, ord, ref);
    var err, seeded, ran;
    p, err, seeded := SeedInputs(g, xs, ord, ref, p0);
    if err.Some? {
      StoppedFailsLast(g, xs, ord, ref, seeded, err.value);
      PrefixOfConcat(seeded, InputNodes(g), [], InteriorOrder(g, ord));
      return p, Failure(err.value), seeded;
    }
    p, err, ran := RunInterior(g, xs, ord, ref, p);
    trace := seeded + ran;
    if err.Some? {
      StoppedAfter(g, ref, seeded, ran);
      StoppedFailsLast(g, xs, ord, ref, trace, err.value);
      PrefixOfConcat([], seeded, ran, InteriorOrder(g, ord));
      return p, Failure(err.value), trace;
    }
    var value;
    p, value := FinishPass(g, xs, ord, ref, p);
    outcome := Success(value);
  }

  /**
   * forward. `ord` stands for the graph library's topological sort: whenever the
   * graph is acyclic it lists every node once with each edge's source first.
   * `xs` holds the positional arguments, `None` for an argument that is None. The
   * pass returns the payload table it leaves behind, the outcome, and the nodes
   * whose units it called, in call order. The outcome is the reference result:
   * it does not depend on the payloads found at the start.
   */
  method Forward<V>(g: Graph<V>, p0: Payloads<V>, xs: seq<Option<V>>, ord: seq<Name>)
    returns (p: Payloads<V>, outcome: Result<Packed<Packed<V>>, Error>, trace: seq<Name>)
    requires WellFormed(g)
    requires Acyclic(g) ==> IsTopologicalOrder(g, ord)
    ensures AssertGraphIsValid(g).Fail? ==> outcome == Failure(AssertGraphIsValid(g).error) && p == p0
    ensures AssertGraphIsValid(g).Pass? && |xs| != |InputNodes(g)| ==>
      outcome == Failure(ArityMismatch(|InputNodes(g)|, |xs|)) && p == p0
    ensures outcome.Success? <==> Ready(g, xs) && AllRunsSucceed(g, xs, ord)
    ensures outcome.Success? ==> outcome.value == ReferenceOutputs(g, xs, ord)
    ensures outcome.Success? ==> forall e | e in g.edges :: e !in p
    ensures outcome.Success? ==>
      |InputNodes(g)| <= |trace| && trace[..|InputNodes(g)|] == InputNodes(g)
      && IsSchedule(g, trace[|InputNodes(g)|..])
    ensures outcome.Failure? ==> !outcome.error.MissingPayload?
    ensures outcome.Failure? && Ready(g, xs) ==> FailsLast(g, xs, ord, trace, outcome.error)
    ensures outcome.Failure? && Ready(g, xs) ==> trace <= InputNodes(g) + InteriorOrder(g, ord)
  {
    var check := AssertGraphIsValid(g);
    if check.Fail? {
      return p0, Failure(check.error), [];
    }
    var inputNodes := InputNodes(g);
    if |xs| != |inputNodes| {
      return p0, Failure(ArityMismatch(|inputNodes|, |xs|)), [];
    }
    p, outcome, trace := RunPass(g, p0, xs, ord);
    if outcome.Success? {
      assert trace[..|inputNodes|] == inputNodes;
      assert trace[|inputNodes|..] == InteriorOrder(g, ord);
      InteriorOrderIsSchedule(g, ord);
    }
  }
}

=== FILE: errors.dfy ===
/** The failures the container raises, one constructor per failed assertion or lookup. */
module Errors {
  import opened Digraph

  datatype Error =
    /** A node name that is not in the graph was used where a node is required. */
    | UnknownNode(name: Name)
    /** An edge insertion left a graph that fails the validity test. */
    | InvalidGraph
    /** The graph has a cycle. */
    | NotADag
    /** An output node has an out-edge. */
    | OutputNotSink(name: Name)
    /** An output node has no in-edge. */
    | OutputIsSource(name: Name)
    /** An input node has an in-edge. */
    | InputNotSource(name: Name)
    /** An input node has no out-edge. */
    | InputIsSink(name: Name)
    /** The forward pass got a different number of arguments than there are input nodes. */
    | ArityMismatch(expected: nat, got: nat)
    /** A node without in-edges was run without an external input. */
    | SourceWithoutInput(name: Name)
    /** An in-edge had no payload when its target ran. */
    | MissingPayload(edge: Edge)
    /** No unit is registered under the node's name. */
    | NoUnit(name: Name)
    /** A unit produced a number of outputs that is neither one nor the node's out-degree. */
    | OutputArityMismatch(name: Name, produced: nat, expected: nat)
}

=== FILE: registry.dfy ===
/**
 * The container's public structural interface: membership and degree queries,
 * the ordered input and output node lists, the validity test and assertion, and
 * the construction calls. Edge insertion is validated after the edge is added,
 * and a failed validation does not remove the edge again.
 */
module Registry {
  import opened Wrappers
  import opened Seqs
  import opened Digraph
  import opened Topology
  import opened Errors

  /** The graph as a construction call left it, and the error the call raised, if any. */
  datatype Step<!V> = Step(graph: Graph<V>, error: Option<Error>) {
    predicate Ok() {
      error.None?
    }
  }

  /** The pass-through unit registered for every input node. */
  function Identity<V>(xs: seq<V>): (r: seq<V>)
    ensures r == xs
  {
    xs
  }

  function IsNodeInGraph<V>(g: Graph<V>, n: Name): (b: bool)
    requires WellFormed(g)
    ensures b <==> n in g.nodes
  {
    n in g.flags
  }

  /** A source node has no incoming edge; asking about an unknown name fails. */
  function IsSourceNode<V>(g: Graph<V>, n: Name): (r: Result<bool, Error>)
    requires WellFormed(g)
    ensures r.Success? <==> n in g.nodes
    ensures r.Failure? ==> r.error == UnknownNode(n)
    ensures r.Success? ==> (r.value <==> forall e | e in g.edges :: e.dst != n)
  {
    if !IsNodeInGraph(g, n) then Failure(UnknownNode(n)) else Success(InDegree(g, n) == 0)
  }

  /** A sink node has no outgoing edge; asking about an unknown name fails. */
  function IsSinkNode<V>(g: Graph<V>, n: Name): (r: Result<bool, Error>)
    requires WellFormed(g)
    ensures r.Success? <==> n in g.nodes
    ensures r.Failure? ==> r.error == UnknownNode(n)
    ensures r.Success? ==> (r.value <==> forall e | e in g.edges :: e.src != n)
  {
    if !IsNodeInGraph(g, n) then Failure(UnknownNode(n)) else Success(OutDegree(g, n) == 0)
  }

  /** The input nodes in insertion order; this order is the order of the forward arguments. */
  function InputNodes<V>(g: Graph<V>): (r: seq<Name>)
    requires WellFormed(g)
    ensures IsSubsequence(r, g.nodes) && Distinct(r)
    ensures forall n :: n in r <==> n in g.nodes && IsInput(g, n)
  {
    var r := Filter((n: Name) => IsInput(g, n), g.nodes);
    SubsequenceDistinct(r, g.nodes);
    r
  }

  /** The output nodes in insertion order; this order is the order of the forward results. */
  function OutputNodes<V>(g: Graph<V>): (r: seq<Name>)
    requires WellFormed(g)
    ensures IsSubsequence(r, g.nodes) && Distinct(r)
    ensures forall n :: n in r <==> n in g.nodes && IsOutput(g, n)
  {
    var r := Filter((n: Name) => IsOutput(g, n), g.nodes);
    SubsequenceDistinct(r, g.nodes);
    r
  }

  ghost predicate OutputsAreSinks<V>(g: Graph<V>) {
    forall n, e | n in g.nodes && IsOutput(g, n) && e in g.edges :: e.src != n
  }

  ghost predicate InputsAreSources<V>(g: Graph<V>) {
    forall n, e | n in g.nodes && IsInput(g, n) && e in g.edges :: e.dst != n
  }

  /**
   * Validity: acyclic, outputs are sinks, inputs are sources. Sources that are not
   * inputs and sinks that are not outputs are allowed.
   */
  ghost predicate Valid<V>(g: Graph<V>) {
    Acyclic(g) && OutputsAreSinks(g) && InputsAreSources(g)
  }

  ghost predicate OutputsConnected<V>(g: Graph<V>) {
    forall n | n in g.nodes && IsOutput(g, n) :: exists e | e in g.edges :: e.dst == n
  }

  ghost predicate InputsConnected<V>(g: Graph<V>) {
    forall n | n in g.nodes && IsInput(g, n) :: exists e | e in g.edges :: e.src == n
  }

  /** Every output node has a producer and every input node has a consumer. */
  ghost predicate Connected<V>(g: Graph<V>) {
    OutputsConnected(g) && InputsConnected(g)
  }

  lemma OutputDegrees<V>(g: Graph<V>)
    requires WellFormed(g)
    ensures (forall n | n in OutputNodes(g) :: OutDegree(g, n) == 0) <==> OutputsAreSinks(g)
    ensures (forall n | n in OutputNodes(g) :: InDegree(g, n) > 0) <==> OutputsConnected(g)
  {
    DegreeZero(g);
    forall n | n in OutputNodes(g)
      ensures OutDegree(g, n) == 0 <==> forall e | e in g.edges :: e.src != n
    {
    }
    if forall n | n in OutputNodes(g) :: OutDegree(g, n) == 0 {
      forall n, e | n in g.nodes && IsOutput(g, n) && e in g.edges
        ensures e.src != n
      {
        assert n in OutputNodes(g);
      }
    }
    forall n | n in OutputNodes(g)
      ensures InDegree(g, n) > 0 <==> exists e | e in g.edges :: e.dst == n
    {
      if InDegree(g, n) > 0 {
        assert InEdges(g, n)[0] in InEdges(g, n);
      }
    }
    if forall n | n in OutputNodes(g) :: InDegree(g, n) > 0 {
      forall n | n in g.nodes && IsOutput(g, n)
        ensures exists e | e in g.edges :: e.dst == n
      {
        assert n in OutputNodes(g);
      }
    }
  }

  lemma InputDegrees<V>(g: Graph<V>)
    requires WellFormed(g)
    ensures (forall n | n in InputNodes(g) :: InDegree(g, n) == 0) <==> InputsAreSources(g)
    ensures (forall n | n in InputNodes(g) :: OutDegree(g, n) > 0) <==> InputsConnected(g)
  {
    DegreeZero(g);
    forall n | n in InputNodes(g)
      ensures InDegree(g, n) == 0 <==> forall e | e in g.edges :: e.dst != n
    {
    }
    if forall n | n in InputNodes(g) :: InDegree(g, n) == 0 {
      forall n, e | n in g.nodes && IsInput(g, n) && e in g.edges
        ensures e.dst != n
      {
        assert n in InputNodes(g);
      }
    }
    forall n | n in InputNodes(g)
      ensures OutDegree(g, n) > 0 <==> exists e | e in g.edges :: e.src == n
    {
      if OutDegree(g, n) > 0 {
        assert OutEdges(g, n)[0] in OutEdges(g, n);
      }
    }
    if forall n | n in InputNodes(g) :: OutDegree(g, n) > 0 {
      forall n | n in g.nodes && IsInput(g, n)
        ensures exists e | e in g.edges :: e.src == n
      {
        assert n in InputNodes(g);
      }
    }
  }

  function GraphIsValid<V>(g: Graph<V>): (b: bool)
    requires WellFormed(g)
    ensures b <==> Valid(g)
  {
    OutputDegrees(g);
    InputDegrees(g);
    var isDag := IsDirectedAcyclic(g);
    var outputsAreSinks := forall n | n in OutputNodes(g) :: OutDegree(g, n) == 0;
    var inputsAreSources := forall n | n in InputNodes(g) :: InDegree(g, n) == 0;
    isDag && outputsAreSinks && inputsAreSources
  }

  /** The per-output checks of the validity assertion, in output order. */
  function CheckOutputs<V>(g: Graph<V>, names: seq<Name>): (r: Outcome<Error>)
    ensures r.Pass? <==> (forall n | n in names :: OutDegree(g, n) == 0) && (forall n | n in names :: InDegree(g, n) > 0)
    ensures r.Fail? ==> (r.error.OutputNotSink? || r.error.OutputIsSource?) && r.error.name in names
    ensures r.Fail? && r.error.OutputNotSink? ==> OutDegree(g, r.error.name) > 0
    ensures r.Fail? && r.error.OutputIsSource? ==> InDegree(g, r.error.name) == 0 && OutDegree(g, r.error.name) == 0
  {
    if names == [] then Pass
    else if OutDegree(g, names[0]) != 0 then Fail(OutputNotSink(names[0]))
    else if InDegree(g, names[0]) == 0 then Fail(OutputIsSource(names[0]))
    else CheckOutputs(g, names[1..])
  }

  /** The per-input checks of the validity assertion, in input order. */
  function CheckInputs<V>(g: Graph<V>, names: seq<Name>): (r: Outcome<Error>)
    ensures r.Pass? <==> (forall n | n in names :: InDegree(g, n) == 0) && (forall n | n in names :: OutDegree(g, n) > 0)
    ensures r.Fail? ==> (r.error.InputNotSource? || r.error.InputIsSink?) && r.error.name in names
    ensures r.Fail? && r.error.InputNotSource? ==> InDegree(g, r.error.name) > 0
    ensures r.Fail? && r.error.InputIsSink? ==> OutDegree(g, r.error.name) == 0 && InDegree(g, r.error.name) == 0
  {
    if names == [] then Pass
    else if InDegree(g, names[0]) != 0 then Fail(InputNotSource(names[0]))
    else if OutDegree(g, names[0]) == 0 then Fail(InputIsSink(names[0]))
    else CheckInputs(g, names[1..])
  }

  /** The output check names the first listed output that is not a sink with an in-edge. */
  lemma {:induction false} OutputCheckNamesFirst<V>(g: Graph<V>, names: seq<Name>)
    ensures var r := CheckOutputs(g, names);
      r.Fail? ==> forall j | 0 <= j < IndexOf(names, r.error.name) ::
        OutDegree(g, names[j]) == 0 && InDegree(g, names[j]) > 0
    decreases |names|
  {
    if names != [] && OutDegree(g, names[0]) == 0 && InDegree(g, names[0]) > 0 {
      OutputCheckNamesFirst(g, names[1..]);
      var r := CheckOutputs(g, names);
      if r.Fail? {
        var n := r.error.name;
        assert n != names[0];
        assert IndexOf(names, n) == 1 + IndexOf(names[1..], n);
        AllBeforeCons(names, m => OutDegree(g, m) == 0 && InDegree(g, m) > 0, IndexOf(names, n));
      }
    }
  }

  /** The input check names the first listed input that is not a source with an out-edge. */
  lemma {:induction false} InputCheckNamesFirst<V>(g: Graph<V>, names: seq<Name>)
    ensures var r := CheckInputs(g, names);
      r.Fail? ==> forall j | 0 <= j < IndexOf(names, r.error.name) ::
        InDegree(g, names[j]) == 0 && OutDegree(g, names[j]) > 0
    decreases |names|
  {
    if names != [] && InDegree(g, names[0]) == 0 && OutDegree(g, names[0]) > 0 {
      InputCheckNamesFirst(g, names[1..]);
      var r := CheckInputs(g, names);
      if r.Fail? {
        var n := r.error.name;
        assert n != names[0];
        assert IndexOf(names, n) == 1 + IndexOf(names[1..], n);
        AllBeforeCons(names, m => InDegree(g, m) == 0 && OutDegree(g, m) > 0, IndexOf(names, n));
      }
    }
  }

  /**
   * The validity assertion: the cycle test first, then each output node (sink, then
   * connected), then each input node (source, then connected); the first failed
   * check is reported.
   */
  function AssertGraphIsValid<V>(g: Graph<V>): (r: Outcome<Error>)
    requires WellFormed(g)
    ensures r.Pass? <==> Valid(g) && Connected(g)
    ensures r == Fail(NotADag) <==> !Acyclic(g)
    ensures r.Fail? ==> r.error.NotADag? || r.error.OutputNotSink? || r.error.OutputIsSource?
                        || r.error.InputNotSource? || r.error.InputIsSink?
  {
    if !IsDirectedAcyclic(g) then Fail(NotADag)
    else
      var outs := CheckOutputs(g, OutputNodes(g));
      assert outs.Pass? <==> OutputsAreSinks(g) && OutputsConnected(g) by {
        OutputDegrees(g);
      }
      if outs.Fail? then outs
      else
        var ins := CheckInputs(g, InputNodes(g));
        assert ins.Pass? <==> InputsAreSources(g) && InputsConnected(g) by {
          InputDegrees(g);
        }
        ins
  }

  /** A failed assertion names a declared node that breaks the rule the error stands for. */
  lemma AssertionNamesCulprit<V>(g: Graph<V>)
    requires WellFormed(g)
    ensures var r := AssertGraphIsValid(g);
      r.Fail? && r.error.OutputNotSink? ==>
        var n := r.error.name; n in g.nodes && IsOutput(g, n) && exists e | e in g.edges :: e.src == n
    ensures var r := AssertGraphIsValid(g);
      r.Fail? && r.error.OutputIsSource? ==>
        var n := r.error.name; n in g.nodes && IsOutput(g, n) && forall e | e in g.edges :: e.dst != n
    ensures var r := AssertGraphIsValid(g);
      r.Fail? && r.error.InputNotSource? ==>
        var n := r.error.name; n in g.nodes && IsInput(g, n) && exists e | e in g.edges :: e.dst == n
    ensures var r := AssertGraphIsValid(g);
      r.Fail? && r.error.InputIsSink? ==>
        var n := r.error.name; n in g.nodes && IsInput(g, n) && forall e | e in g.edges :: e.src != n
  {
    DegreeZero(g);
    var r := AssertGraphIsValid(g);
    if r.Fail? && r.error.OutputNotSink? {
      assert OutEdges(g, r.error.name)[0] in OutEdges(g, r.error.name);
    }
    if r.Fail? && r.error.InputNotSource? {
      assert InEdges(g, r.error.name)[0] in InEdges(g, r.error.name);
    }
  }

  /** A graph that passes the assertion has no node that is both an input and an output. */
  lemma AssertedGraphSeparatesRoles<V>(g: Graph<V>, n: Name)
    requires WellFormed(g) && AssertGraphIsValid(g).Pass?
    ensures n in g.nodes ==> !(IsInput(g, n) && IsOutput(g, n))
  {
    if n in g.nodes && IsOutput(g, n) {
      var e :| e in g.edges && e.dst == n;
    }
  }

  /**
   * add_edge: both endpoints must exist; the edge is inserted and only then is the
   * graph validated, so on a validation failure the edge stays in the graph.
   */
  function AddEdge<V>(g: Graph<V>, from: Name, to: Name): (r: Step<V>)
    requires WellFormed(g)
    ensures WellFormed(r.graph)
    ensures r.graph.nodes == g.nodes && r.graph.flags == g.flags && r.graph.units == g.units
    ensures from !in g.nodes ==> r == Step(g, Some(UnknownNode(from)))
    ensures from in g.nodes && to !in g.nodes ==> r == Step(g, Some(UnknownNode(to)))
    ensures from in g.nodes && to in g.nodes ==>
      && r.graph.edges == AppendNew(g.edges, [Edge(from, to)])
      && (forall e :: e in r.graph.edges <==> e in g.edges || e == Edge(from, to))
      && g.edges <= r.graph.edges
      && (r.Ok() || r.error == Some(InvalidGraph))
    ensures r.Ok() <==> from in g.nodes && to in g.nodes && Valid(r.graph)
  {
    if !IsNodeInGraph(g, from) then Step(g, Some(UnknownNode(from)))
    else if !IsNodeInGraph(g, to) then Step(g, Some(UnknownNode(to)))
    else
      var g' := InsertEdge(g, Edge(from, to));
      if GraphIsValid(g') then Step(g', None) else Step(g', Some(InvalidGraph))
  }

  /**
   * The insertions of `previous[..k] -> to` into a graph with edges `es` went
   * through and the one of `previous[k] -> to` failed: the error names the first
   * unknown endpoint, or is the failed validity check, in which case the
   * offending edge stays in the graph.
   */
  ghost predicate StopsAt<V>(es: seq<Edge>, previous: seq<Name>, to: Name, r: Step<V>, k: nat)
    requires k < |previous|
  {
    && WentThrough(es, previous, to, r, k)
    && InsertionFailed(previous[k], to, r)
    && r.graph.edges == AppendNew(es, EdgesInto(previous[..k] + Offending(previous, r, k), to))
  }

  /**
   * The first `k` insertions succeeded: their endpoints are nodes and the graph
   * holding their edges is valid. Validity only gets harder to meet as edges are
   * added, so every intermediate graph was valid as well.
   */
  ghost predicate WentThrough<V>(es: seq<Edge>, previous: seq<Name>, to: Name, r: Step<V>, k: nat)
    requires k <= |previous|
  {
    k > 0 ==>
      && to in r.graph.nodes
      && (forall p | p in previous[..k] :: p in r.graph.nodes)
      && Valid(r.graph.(edges := AppendNew(es, EdgesInto(previous[..k], to))))
  }

  /** Why inserting `from -> to` failed: the first unknown endpoint, or the validity check. */
  ghost predicate InsertionFailed<V>(from: Name, to: Name, r: Step<V>) {
    || (r.error == Some(UnknownNode(from)) && from !in r.graph.nodes)
    || (r.error == Some(UnknownNode(to)) && from in r.graph.nodes && to !in r.graph.nodes)
    || (r.error == Some(InvalidGraph) && from in r.graph.nodes && to in r.graph.nodes && !Valid(r.graph))
  }

  /** The edges `p -> to` for each `p` of `names`, in order. */
  function EdgesInto(names: seq<Name>, to: Name): seq<Edge> {
    seq(|names|, i requires 0 <= i < |names| => Edge(names[i], to))
  }

  /** The source of the edge left behind by a failed validity check at position `k`, if that is how `r` failed. */
  function Offending<V>(previous: seq<Name>, r: Step<V>, k: nat): seq<Name>
    requires k < |previous|
  {
    if r.error == Some(InvalidGraph) then [previous[k]] else []
  }

  /** Proof helper: a failed first insertion is a failure at position 0. */
  lemma StopsFirst<V>(g: Graph<V>, previous: seq<Name>, to: Name)
    requires WellFormed(g) && previous != [] && !AddEdge(g, previous[0], to).Ok()
    ensures StopsAt(g.edges, previous, to, AddEdge(g, previous[0], to), 0)
  {
    var s := AddEdge(g, previous[0], to);
    assert previous[..0] + Offending(previous, s, 0) == Offending(previous, s, 0);
  }

  /** Proof helper: a failure of the insertions after a first successful one, read against the graph before it. */
  lemma StopsAfterFirst<V>(g: Graph<V>, s: Step<V>, r: Step<V>, previous: seq<Name>, to: Name)
    requires previous != []
    requires s.graph.edges == AppendNew(g.edges, [Edge(previous[0], to)])
    requires previous[0] in s.graph.nodes && to in s.graph.nodes && Valid(s.graph)
    requires r.graph.nodes == s.graph.nodes && r.graph.flags == s.graph.flags && r.graph.units == s.graph.units
    requires exists k | 0 <= k < |previous[1..]| :: StopsAt(s.graph.edges, previous[1..], to, r, k)
    ensures exists k | 0 <= k < |previous| :: StopsAt(g.edges, previous, to, r, k)
  {
    assert r.graph.(edges := s.graph.edges) == s.graph;
    StopsLater(g.edges, s.graph.edges, previous, to, r);
  }

  /** A failure after a first successful insertion is a failure one position later. */
  lemma StopsLater<V>(a: seq<Edge>, b: seq<Edge>, previous: seq<Name>, to: Name, r: Step<V>)
    requires previous != []
    requires b == AppendNew(a, [Edge(previous[0], to)])
    requires previous[0] in r.graph.nodes && to in r.graph.nodes && Valid(r.graph.(edges := b))
    requires exists k | 0 <= k < |previous[1..]| :: StopsAt(b, previous[1..], to, r, k)
    ensures exists k | 0 <= k < |previous| :: StopsAt(a, previous, to, r, k)
  {
    var k :| 0 <= k < |previous[1..]| && StopsAt(b, previous[1..], to, r, k);
    StopsShift(a, b, previous, to, r, k);
  }

  /** A failure at position `k` of the rest is a failure at position `k + 1` of the whole. */
  lemma StopsShift<V>(a: seq<Edge>, b: seq<Edge>, previous: seq<Name>, to: Name, r: Step<V>, k: nat)
    requires k + 1 < |previous|
    requires b == AppendNew(a, [Edge(previous[0], to)])
    requires previous[0] in r.graph.nodes && to in r.graph.nodes && Valid(r.graph.(edges := b))
    requires StopsAt(b, previous[1..], to, r, k)
    ensures StopsAt(a, previous, to, r, k + 1)
  {
    var rest := previous[1..][..k] + Offending(previous[1..], r, k);
    var names := previous[..k + 1] + Offending(previous, r, k + 1);
    ShiftNames(previous, r, k);
    InsertionsShift(a, previous[0], rest, to);
    SameFailure(previous[1..][k], previous[k + 1], to, r);
    WentThroughShift(a, b, previous, to, r, k);
  }

  /** Success of the first insertion followed by `k` more is success of `k + 1` insertions. */
  lemma WentThroughShift<V>(a: seq<Edge>, b: seq<Edge>, previous: seq<Name>, to: Name, r: Step<V>, k: nat)
    requires k + 1 <= |previous|
    requires b == AppendNew(a, [Edge(previous[0], to)])
    requires previous[0] in r.graph.nodes && to in r.graph.nodes && Valid(r.graph.(edges := b))
    requires WentThrough(b, previous[1..], to, r, k)
    ensures WentThrough(a, previous, to, r, k + 1)
  {
    var done := previous[1..][..k];
    var names := previous[..k + 1];
    assert names == [previous[0]] + done;
    InsertionsShift(a, previous[0], done, to);
    if k == 0 {
      assert EdgesInto(done, to) == [];
      SameValidity(r.graph, b, AppendNew(a, EdgesInto(names, to)));
    } else {
      SameValidity(r.graph, AppendNew(b, EdgesInto(done, to)), AppendNew(a, EdgesInto(names, to)));
      KnownNames(previous[0], done, names, r.graph.nodes);
    }
  }

  /** Proof helper: validity does not depend on how an equal edge sequence was computed. */
  lemma SameValidity<V>(g: Graph<V>, es: seq<Edge>, fs: seq<Edge>)
    requires es == fs && Valid(g.(edges := es))
    ensures Valid(g.(edges := fs))
  {
  }

  /** Proof helper: a first name and the names after it, all known, are all known. */
  lemma KnownNames(n: Name, done: seq<Name>, names: seq<Name>, nodes: seq<Name>)
    requires names == [n] + done && n in nodes
    requires forall p | p in done :: p in nodes
    ensures forall p | p in names :: p in nodes
  {
  }

  /** The names inserted up to position `k + 1` are the first name followed by those of the rest up to `k`. */
  lemma ShiftNames<V>(previous: seq<Name>, r: Step<V>, k: nat)
    requires k + 1 < |previous|
    ensures previous[..k + 1] + Offending(previous, r, k + 1) == [previous[0]] + (previous[1..][..k] + Offending(previous[1..], r, k))
  {
    assert previous[1..][k] == previous[k + 1];
    assert previous[..k + 1] == [previous[0]] + previous[1..][..k];
  }

  /** Proof helper: the same failure reason, read at an equal name. */
  lemma SameFailure<V>(x: Name, y: Name, to: Name, r: Step<V>)
    requires x == y && InsertionFailed(x, to, r)
    ensures InsertionFailed(y, to, r)
  {
  }

  /** Inserting the edge from `n` and then those from `rest` is inserting the edges from `[n] + rest`. */
  lemma InsertionsShift(a: seq<Edge>, n: Name, rest: seq<Name>, to: Name)
    ensures AppendNew(AppendNew(a, [Edge(n, to)]), EdgesInto(rest, to)) == AppendNew(a, EdgesInto([n] + rest, to))
  {
    EdgesIntoCons(n, rest, to);
    AppendNewCons(a, Edge(n, to), EdgesInto(rest, to));
  }

  /** Proof helper: one unfolding of `EdgesInto` at the front. */
  lemma EdgesIntoCons(n: Name, names: seq<Name>, to: Name)
    ensures EdgesInto([n] + names, to) == [Edge(n, to)] + EdgesInto(names, to)
  {
  }

  /** Adds the edges `p -> to` for each `p` of `previous` in order, stopping at the first failure. */
  function AddEdgesTo<V>(g: Graph<V>, previous: seq<Name>, to: Name): (r: Step<V>)
    requires WellFormed(g)
    ensures WellFormed(r.graph)
    ensures r.graph.nodes == g.nodes && r.graph.flags == g.flags && r.graph.units == g.units
    ensures forall e | e in g.edges :: e in r.graph.edges
    ensures forall e | e in r.graph.edges :: e in g.edges || (e.dst == to && e.src in previous)
    ensures r.Ok() ==> forall p | p in previous :: Edge(p, to) in r.graph.edges
    ensures r.Ok() ==> r.graph.edges == AppendNew(g.edges, EdgesInto(previous, to))
    ensures r.Ok() && previous != [] ==> Valid(r.graph)
    ensures !r.Ok() ==> r.error.Some? && (r.error.value == InvalidGraph || r.error.value.UnknownNode?)
    ensures !r.Ok() && r.error.value.UnknownNode? ==> r.error.value.name == to || r.error.value.name in previous
    ensures !r.Ok() ==> exists k | 0 <= k < |previous| :: StopsAt(g.edges, previous, to, r, k)
    ensures previous == [] ==> r == Step(g, None)
    decreases |previous|
  {
    if previous == [] then Step(g, None)
    else
      var s := AddEdge(g, previous[0], to);
      var es := EdgesInto(previous, to);
      assert es[0] == Edge(previous[0], to) && es[1..] == EdgesInto(previous[1..], to);
      if !s.Ok() then
        StopsFirst(g, previous, to);
        s
      else
        var r := AddEdgesTo(s.graph, previous[1..], to);
        assert forall p | p in previous :: p == previous[0] || p in previous[1..];
        EdgeGrowth(g.edges, s.graph.edges, r.graph.edges, previous, to);
        if !r.Ok() then
          StopsAfterFirst(g, s, r, previous, to);
          r
        else r
  }

  /** Composes the edge sets of one insertion and of the insertions that follow it. */
  lemma EdgeGrowth(a: seq<Edge>, b: seq<Edge>, c: seq<Edge>, previous: seq<Name>, to: Name)
    requires previous != []
    requires forall e :: e in b <==> e in a || e == Edge(previous[0], to)
    requires forall e | e in c :: e in b || (e.dst == to && e.src in previous[1..])
    ensures forall e | e in c :: e in a || (e.dst == to && e.src in previous)
  {
    forall e | e in c
      ensures e in a || (e.dst == to && e.src in previous)
    {
      if e !in b {
        assert e.src in previous[1..];
      }
    }
  }

  /** add_input_node: registers the pass-through unit and flags the node as an input; no validation. */
  function AddInputNode<V>(g: Graph<V>, name: Name): (r: Graph<V>)
    requires WellFormed(g)
    ensures WellFormed(r)
    ensures r.edges == g.edges
    ensures r.nodes == if name in g.nodes then g.nodes else g.nodes + [name]
    ensures IsInput(r, name) && (IsOutput(r, name) <==> IsOutput(g, name))
    ensures forall m | m != name :: (IsInput(r, m) <==> IsInput(g, m)) && (IsOutput(r, m) <==> IsOutput(g, m))
    ensures name in r.units && r.units[name] == Identity
    ensures forall m | m != name :: (m in r.units <==> m in g.units) && (m in g.units ==> r.units[m] == g.units[m])
  {
    var g1 := MergeNode(g, name, true, false);
    g1.(units := g1.units[name := Identity])
  }

  /**
   * add_output_node: flags the node as an output, then adds an edge from each of
   * `previous`; only those edge insertions are validated.
   */
  function AddOutputNode<V>(g: Graph<V>, name: Name, previous: seq<Name>): (r: Step<V>)
    requires WellFormed(g)
    ensures WellFormed(r.graph)
    ensures r.graph.nodes == if name in g.nodes then g.nodes else g.nodes + [name]
    ensures IsOutput(r.graph, name) && (IsInput(r.graph, name) <==> IsInput(g, name))
    ensures forall m | m != name :: (IsInput(r.graph, m) <==> IsInput(g, m)) && (IsOutput(r.graph, m) <==> IsOutput(g, m))
    ensures r.graph.units == g.units
    ensures forall e | e in g.edges :: e in r.graph.edges
    ensures forall e | e in r.graph.edges :: e in g.edges || (e.dst == name && e.src in previous)
    ensures r.Ok() ==> forall p | p in previous :: Edge(p, name) in r.graph.edges
    ensures r.Ok() && previous != [] ==> Valid(r.graph)
    ensures r.Ok() ==> r.graph.edges == AppendNew(g.edges, EdgesInto(previous, name))
    ensures !r.Ok() ==> exists k | 0 <= k < |previous| :: StopsAt(g.edges, previous, name, r, k)
  {
    AddEdgesTo(MergeNode(g, name, false, true), previous, name)
  }

  /**
   * add_node: registers `unit` under `name` (replacing any earlier unit), adds the
   * node if it is new, then adds an edge from each of `previous`.
   */
  function AddNode<V>(g: Graph<V>, name: Name, unit: Unit<V>, previous: seq<Name>): (r: Step<V>)
    requires WellFormed(g)
    ensures WellFormed(r.graph)
    ensures r.graph.nodes == if name in g.nodes then g.nodes else g.nodes + [name]
    ensures forall m :: (IsInput(r.graph, m) <==> IsInput(g, m)) && (IsOutput(r.graph, m) <==> IsOutput(g, m))
    ensures name in r.graph.units && r.graph.units[name] == unit
    ensures forall m | m != name :: (m in r.graph.units <==> m in g.units) && (m in g.units ==> r.graph.units[m] == g.units[m])
    ensures forall e | e in g.edges :: e in r.graph.edges
    ensures forall e | e in r.graph.edges :: e in g.edges || (e.dst == name && e.src in previous)
    ensures r.Ok() ==> forall p | p in previous :: Edge(p, name) in r.graph.edges
    ensures r.Ok() && previous != [] ==> Valid(r.graph)
    ensures r.Ok() ==> r.graph.edges == AppendNew(g.edges, EdgesInto(previous, name))
    ensures !r.Ok() ==> exists k | 0 <= k < |previous| :: StopsAt(g.edges, previous, name, r, k)
  {
    var g1 := MergeNode(g, name, false, false);
    var g2 := g1.(units := g1.units[name := unit]);
    assert forall m :: (IsInput(g2, m) <==> IsInput(g, m)) && (IsOutput(g2, m) <==> IsOutput(g, m));
    AddEdgesTo(g2, previous, name)
  }
}

=== FILE: routing.dfy ===
/**
 * Running one node: gathering its inputs from the payloads of its in-edges (or
 * from one external value), calling its unit, and writing the outputs onto its
 * out-edges under the replication rule. Payloads live in a side table keyed by
 * edge; the table is threaded through the calls instead of being stored on the
 * edges.
 */
module Routing {
  import opened Wrappers
  import opened Seqs
  import opened Digraph
  import opened Errors
  import opened Registry

  /** The payload carried by each edge during a pass. */
  type Payloads<V> = map<Edge, V>

  /** A value returned to a caller: a lone value, or a sequence of them. */
  datatype Packed<V> = One(value: V) | Many(values: seq<V>)

  /** Wraps a lone value as a singleton and leaves a sequence as it is. */
  function ToIterable<V>(p: Packed<V>): (r: seq<V>)
    ensures p.One? ==> |r| == 1 && r[0] == p.value
    ensures p.Many? ==> r == p.values
  {
    match p
    case One(v) => [v]
    case Many(vs) => vs
  }

  /** Unwraps a singleton to its element; any other length stays a sequence. */
  function FromIterable<V>(vs: seq<V>): (r: Packed<V>)
    ensures r.One? <==> |vs| == 1
    ensures ToIterable(r) == vs
  {
    if |vs| == 1 then One(vs[0]) else Many(vs)
  }

  /** Unwrapping undoes wrapping for everything except a sequence holding a single value. */
  lemma PackRoundTrip<V>(p: Packed<V>)
    ensures FromIterable(ToIterable(p)) == p <==> !(p.Many? && |p.values| == 1)
  {
  }

  /** The unit registered under `n`; a name without one cannot be called. */
  function UnitOf<V>(g: Graph<V>, n: Name): (r: Result<Unit<V>, Error>)
    ensures r.Success? <==> n in g.units
    ensures r.Success? ==> r.value == g.units[n]
    ensures r.Failure? ==> r.error == NoUnit(n)
  {
    if n in g.units then Success(g.units[n]) else Failure(NoUnit(n))
  }

  /** `k` copies of `v` (the list repetition `[v] * k`). */
  function Replicate<V>(v: V, k: nat): (r: seq<V>)
    ensures |r| == k && forall i | 0 <= i < k :: r[i] == v
  {
    seq(k, _ => v)
  }

  /**
   * The values a node hands to its out-edges: a sink keeps its outputs as they
   * are; otherwise one output is replicated onto every out-edge, and any other
   * number of outputs must equal the out-degree.
   */
  function Route<V>(g: Graph<V>, n: Name, outs: seq<V>): (r: Result<seq<V>, Error>)
    ensures OutDegree(g, n) == 0 ==> r == Success(outs)
    ensures OutDegree(g, n) > 0 ==> (r.Success? <==> |outs| == 1 || |outs| == OutDegree(g, n))
    ensures OutDegree(g, n) > 0 && r.Success? ==>
      && |r.value| == OutDegree(g, n)
      && forall i | 0 <= i < |r.value| :: r.value[i] == if |outs| == 1 then outs[0] else outs[i]
    ensures r.Failure? ==> r.error == OutputArityMismatch(n, |outs|, OutDegree(g, n))
  {
    if OutDegree(g, n) == 0 then Success(outs)
    else
      var replicated := if |outs| == 1 then Replicate(outs[0], OutDegree(g, n)) else outs;
      if |replicated| != OutDegree(g, n) then
        Failure(OutputArityMismatch(n, |replicated|, OutDegree(g, n)))
      else
        Success(replicated)
  }

  /** The payloads of `es` in order; the first edge without a payload is reported. */
  function GatherFrom<V>(p: Payloads<V>, es: seq<Edge>): (r: Result<seq<V>, Error>)
    ensures r.Success? <==> forall e | e in es :: e in p
    ensures r.Success? ==> |r.value| == |es| && forall i | 0 <= i < |es| :: r.value[i] == p[es[i]]
    ensures r.Failure? ==> r.error.MissingPayload? && r.error.edge in es && r.error.edge !in p
  {
    if es == [] then Success([])
    else if es[0] !in p then Failure(MissingPayload(es[0]))
    else
      var rest :- GatherFrom(p, es[1..]);
      Success([p[es[0]]] + rest)
  }

  /** The edge reported missing is the first listed edge without a payload. */
  lemma {:induction false} GatherNamesFirst<V>(p: Payloads<V>, es: seq<Edge>)
    ensures var r := GatherFrom(p, es);
      r.Failure? ==> forall j | 0 <= j < IndexOf(es, r.error.edge) :: es[j] in p
    decreases |es|
  {
    if es != [] && es[0] in p {
      GatherNamesFirst(p, es[1..]);
      var r := GatherFrom(p, es);
      if r.Failure? {
        assert IndexOf(es, r.error.edge) == 1 + IndexOf(es[1..], r.error.edge);
        forall j | 1 <= j < IndexOf(es, r.error.edge)
          ensures es[j] in p
        {
          assert es[j] == es[1..][j - 1];
        }
      }
    }
  }

  /** Writes `vs[i]` as the payload of `es[i]`, overwriting any earlier payload. */
  function WriteAll<V>(p: Payloads<V>, es: seq<Edge>, vs: seq<V>): (r: Payloads<V>)
    requires |es| == |vs| && Distinct(es)
    ensures forall e :: e in r <==> e in p || e in es
    ensures forall i | 0 <= i < |es| :: r[es[i]] == vs[i]
    ensures forall e | e in p && e !in es :: r[e] == p[e]
    decreases |es|
  {
    if es == [] then p
    else
      DistinctCons(es);
      WriteAll(p[es[0] := vs[0]], es[1..], vs[1..])
  }

  /**
   * The inputs a node is called with: the external value alone when one is given,
   * otherwise the payloads of its in-edges in in-edge order.
   */
  ghost function Received<V>(g: Graph<V>, p: Payloads<V>, n: Name, input: Option<V>): (r: seq<V>)
    requires input.Some? || forall e | e in InEdges(g, n) :: e in p
  {
    if input.Some? then [input.value]
    else seq(InDegree(g, n), i requires 0 <= i < InDegree(g, n) => p[InEdges(g, n)[i]])
  }

  function NodeInputs<V>(g: Graph<V>, p: Payloads<V>, n: Name, input: Option<V>): (r: Result<seq<V>, Error>)
    requires WellFormed(g)
    ensures r.Success? ==> n in g.nodes
    ensures r.Success? && input.None? ==> InDegree(g, n) > 0 && forall e | e in InEdges(g, n) :: e in p
    ensures r.Success? ==> r.value == Received(g, p, n, input)
    ensures n !in g.nodes ==> r == Failure(UnknownNode(n))
    ensures n in g.nodes && input.Some? ==> r.Success?
    ensures n in g.nodes && input.None? && InDegree(g, n) == 0 ==> r == Failure(SourceWithoutInput(n))
    ensures n in g.nodes && input.None? && InDegree(g, n) > 0 ==>
      (r.Success? <==> forall e | e in InEdges(g, n) :: e in p)
    ensures r.Failure? && r.error.MissingPayload? ==> r.error.edge in InEdges(g, n) && r.error.edge !in p
  {
    DegreeZero(g);
    match input
    case None =>
      var isSource :- IsSourceNode(g, n);
      if isSource then Failure(SourceWithoutInput(n)) else GatherFrom(p, InEdges(g, n))
    case Some(x) =>
      if !IsNodeInGraph(g, n) then Failure(UnknownNode(n)) else Success([x])
  }

  /**
   * Runs node `n`: gathers its inputs, calls its unit, and for a node that is not
   * a sink writes the routed outputs onto its out-edges. Returns the new payload
   * table and the outputs, a singleton unwrapped. A failure writes nothing.
   */
  function ForwardThroughNode<V>(g: Graph<V>, p: Payloads<V>, n: Name, input: Option<V>)
    : (r: Result<(Payloads<V>, Packed<V>), Error>)
    requires WellFormed(g)
    ensures n !in g.nodes ==> r == Failure(UnknownNode(n))
    ensures n in g.nodes && input.None? && InDegree(g, n) == 0 ==> r == Failure(SourceWithoutInput(n))
    ensures r.Success? ==> n in g.nodes && n in g.units
    ensures r.Success? && input.None? ==> InDegree(g, n) > 0 && forall e | e in InEdges(g, n) :: e in p
    ensures r.Success? ==>
      var outs := g.units[n](Received(g, p, n, input));
      var p' := r.value.0;
      && (OutDegree(g, n) == 0 ==> p' == p && r.value.1 == FromIterable(outs))
      && (OutDegree(g, n) > 0 ==>
           && (|outs| == 1 || |outs| == OutDegree(g, n))
           && (forall i | 0 <= i < OutDegree(g, n) ::
                 OutEdges(g, n)[i] in p' && p'[OutEdges(g, n)[i]] == if |outs| == 1 then outs[0] else outs[i]))
      && (forall e | e !in OutEdges(g, n) :: (e in p' <==> e in p) && (e in p ==> p'[e] == p[e]))
    ensures r.Failure? ==>
      || r.error == UnknownNode(n)
      || r.error == SourceWithoutInput(n)
      || (r.error.MissingPayload? && r.error.edge in InEdges(g, n) && r.error.edge !in p)
      || r.error == NoUnit(n)
      || (r.error.OutputArityMismatch? && r.error.name == n)
  {
    var ins :- NodeInputs(g, p, n, input);
    var unit :- UnitOf(g, n);
    var outs :- Route(g, n, unit(ins));
    AdjacencyDistinct(g, n);
    var p' := if OutDegree(g, n) == 0 then p else WriteAll(p, OutEdges(g, n), outs);
    Success((p', FromIterable(outs)))
  }

  /**
   * With its inputs available and a unit registered, a node fails exactly when it
   * is not a sink and its unit returns neither one value nor one per out-edge.
   */
  lemma ArityRule<V>(g: Graph<V>, p: Payloads<V>, n: Name, input: Option<V>)
    requires WellFormed(g) && n in g.nodes && n in g.units
    requires input.Some? || (InDegree(g, n) > 0 && forall e | e in InEdges(g, n) :: e in p)
    ensures var outs := g.units[n](Received(g, p, n, input));
      var r := ForwardThroughNode(g, p, n, input);
      && (r.Success? <==> OutDegree(g, n) == 0 || |outs| == 1 || |outs| == OutDegree(g, n))
      && (r.Failure? ==> r.error == OutputArityMismatch(n, |outs|, OutDegree(g, n)))
  {
  }

  /**
   * A node that is not a sink returns exactly the values it wrote onto its
   * out-edges, in out-edge order: a replicated value comes back once per out-edge.
   */
  lemma ReturnsWhatItWrites<V>(g: Graph<V>, p: Payloads<V>, n: Name, input: Option<V>)
    requires WellFormed(g)
    ensures var r := ForwardThroughNode(g, p, n, input);
      r.Success? && OutDegree(g, n) > 0 ==>
        && |ToIterable(r.value.1)| == OutDegree(g, n)
        && forall i | 0 <= i < OutDegree(g, n) :: ToIterable(r.value.1)[i] == r.value.0[OutEdges(g, n)[i]]
  {
  }

  /** A node whose unit returns one value delivers that same value on every out-edge. */
  lemma Broadcast<V>(g: Graph<V>, p: Payloads<V>, n: Name, input: Option<V>, v: V)
    requires WellFormed(g) && n in g.nodes && n in g.units
    requires input.Some? || (InDegree(g, n) > 0 && forall e | e in InEdges(g, n) :: e in p)
    requires g.units[n](Received(g, p, n, input)) == [v]
    ensures var r := ForwardThroughNode(g, p, n, input);
      r.Success? && forall e | e in OutEdges(g, n) :: e in r.value.0 && r.value.0[e] == v
  {
    var r := ForwardThroughNode(g, p, n, input);
    forall e | e in OutEdges(g, n)
      ensures e in r.value.0 && r.value.0[e] == v
    {
      var i :| 0 <= i < |OutEdges(g, n)| && OutEdges(g, n)[i] == e;
    }
  }

  /**
   * A node holding the pass-through unit, given an external value, succeeds and
   * puts that value on every out-edge; with at most one out-edge it returns the
   * value itself.
   */
  lemma PassThrough<V>(g: Graph<V>, p: Payloads<V>, n: Name, x: V)
    requires WellFormed(g) && n in g.nodes && n in g.units && g.units[n] == Identity
    ensures var r := ForwardThroughNode(g, p, n, Some(x));
      && r.Success?
      && (OutDegree(g, n) <= 1 ==> r.value.1 == One(x))
      && forall e | e in OutEdges(g, n) :: e in r.value.0 && r.value.0[e] == x
  {
    assert Received(g, p, n, Some(x)) == [x];
    assert g.units[n]([x]) == Identity([x]) == [x];
    Broadcast(g, p, n, Some(x), x);
    var r := ForwardThroughNode(g, p, n, Some(x));
    if OutDegree(g, n) == 1 {
      ReturnsWhatItWrites(g, p, n, Some(x));
      assert ToIterable(r.value.1) == [x];
    }
  }

  /** Removes the payload of each edge in `es`. */
  function StripEdges<V>(p: Payloads<V>, es: seq<Edge>): (r: Payloads<V>)
    ensures forall e :: e in r <==> e in p && e !in es
    ensures forall e | e in r :: r[e] == p[e]
    decreases |es|
  {
    if es == [] then p else StripEdges(p - {es[0]}, es[1..])
  }

  /** clear_payloads: afterwards no edge of the graph carries a payload. */
  function ClearPayloads<V>(g: Graph<V>, p: Payloads<V>): (r: Payloads<V>)
    ensures forall e | e in g.edges :: e !in r
    ensures forall e | e in r :: e in p && r[e] == p[e]
    ensures forall e | e in p && e !in g.edges :: e in r
  {
    StripEdges(p, g.edges)
  }
}

=== FILE: semantics.dfy ===
/**
 * A reference meaning for one forward pass, independent of any payload table:
 * what each node emits, defined by recursion along a topological order. An
 * input node is called with its own argument; any other node with the values
 * its predecessors emit on its in-edges, in in-edge order. The definition does
 * not depend on which topological order is used.
 */
module Semantics {
  import opened Wrappers
  import opened Seqs
  import opened Digraph
  import opened Topology
  import opened Errors
  import opened Registry
  import opened Routing

  /** The setting the reference definitions need: a topological order and one argument per input node. */
  ghost predicate Frame<V>(g: Graph<V>, xs: seq<Option<V>>, ord: seq<Name>) {
    WellFormed(g) && IsTopologicalOrder(g, ord) && |xs| == |InputNodes(g)|
  }

  /** The nodes a pass runs: the input nodes (with their arguments) and the interior nodes. */
  predicate Runs<V>(g: Graph<V>, n: Name) {
    IsInput(g, n) || !IsOutput(g, n)
  }

  lemma PredecessorEarlier<V>(g: Graph<V>, ord: seq<Name>, e: Edge)
    requires WellFormed(g) && IsTopologicalOrder(g, ord) && e in g.edges
    ensures e.src in ord && e.dst in ord
    ensures IndexOf(ord, e.src) < IndexOf(ord, e.dst)
  {
    var i := IndexOf(ord, e.src);
    var j := IndexOf(ord, e.dst);
    assert Edge(ord[i], ord[j]) in g.edges;
  }

  /** The values node `u` hands to its out-edges (its outputs, for a sink), or the error it raises. */
  ghost function Emitted<V>(g: Graph<V>, xs: seq<Option<V>>, ord: seq<Name>, u: Name): (r: Result<seq<V>, Error>)
    requires Frame(g, xs, ord) && u in g.nodes
    ensures r.Success? && OutDegree(g, u) > 0 ==> |r.value| == OutDegree(g, u)
    ensures r.Failure? ==> !r.error.MissingPayload?
    decreases IndexOf(ord, u), 1, 0
  {
    var ins :- Inputs(g, xs, ord, u);
    var unit :- UnitOf(g, u);
    Route(g, u, unit(ins))
  }

  /**
   * The external value a pass hands to node `u`: an input node gets its own
   * argument, where `None` stands for an argument that is None and so counts as
   * no value at all; any other node gets none.
   */
  function Argument<V>(g: Graph<V>, xs: seq<Option<V>>, u: Name): (r: Option<V>)
    requires WellFormed(g) && |xs| == |InputNodes(g)|
    ensures r.Some? ==> u in g.nodes && IsInput(g, u)
    ensures u in g.nodes && IsInput(g, u) ==> r == xs[IndexOf(InputNodes(g), u)]
  {
    if u in g.nodes && IsInput(g, u) then xs[IndexOf(InputNodes(g), u)] else None
  }

  /** The inputs `u` is called with: its external value if it has one, else the values on its in-edges. */
  ghost function Inputs<V>(g: Graph<V>, xs: seq<Option<V>>, ord: seq<Name>, u: Name): (r: Result<seq<V>, Error>)
    requires Frame(g, xs, ord) && u in g.nodes
    ensures r.Success? && Argument(g, xs, u).None? ==> |r.value| == InDegree(g, u)
    ensures r.Failure? ==> !r.error.MissingPayload?
    decreases IndexOf(ord, u), 0, InDegree(g, u) + 1
  {
    match Argument(g, xs, u)
    case Some(x) => Success([x])
    case None =>
      if InDegree(g, u) == 0 then Failure(SourceWithoutInput(u))
      else Collect(g, xs, ord, u, InEdges(g, u))
  }

  /** The values emitted on the edges `es` into `u`, in order. */
  ghost function Collect<V>(g: Graph<V>, xs: seq<Option<V>>, ord: seq<Name>, u: Name, es: seq<Edge>)
    : (r: Result<seq<V>, Error>)
    requires Frame(g, xs, ord) && u in g.nodes
    requires forall e | e in es :: e in g.edges && e.dst == u
    ensures r.Success? ==> |r.value| == |es|
    ensures r.Failure? ==> !r.error.MissingPayload?
    decreases IndexOf(ord, u), 0, |es|
  {
    if es == [] then Success([])
    else
      var e := es[0];
      PredecessorEarlier(g, ord, e);
      var outs :- Emitted(g, xs, ord, e.src);
      assert e in OutEdges(g, e.src);
      var v := outs[IndexOf(OutEdges(g, e.src), e)];
      var rest :- Collect(g, xs, ord, u, es[1..]);
      Success([v] + rest)
  }

  /** The value the reference pass places on edge `e`. */
  ghost function EdgeValue<V>(g: Graph<V>, xs: seq<Option<V>>, ord: seq<Name>, e: Edge): V
    requires Frame(g, xs, ord) && e in g.edges
    requires Emitted(g, xs, ord, e.src).Success?
  {
    assert e in OutEdges(g, e.src);
    Emitted(g, xs, ord, e.src).value[IndexOf(OutEdges(g, e.src), e)]
  }

  /** Every node the pass runs completes without error. */
  ghost predicate AllRunsSucceed<V>(g: Graph<V>, xs: seq<Option<V>>, ord: seq<Name>)
    requires Frame(g, xs, ord)
  {
    forall u | u in g.nodes && Runs(g, u) :: Emitted(g, xs, ord, u).Success?
  }

  /** In a valid graph every producer feeding a node is a node the pass runs. */
  lemma ProducersRun<V>(g: Graph<V>, e: Edge)
    requires WellFormed(g) && Valid(g) && e in g.edges
    ensures e.src in g.nodes && Runs(g, e.src)
  {
  }

  /**
   * An input node whose argument is None is run without a value and, having no
   * in-edge in a valid graph, fails as a source without input; so the pass fails.
   */
  lemma NoneArgumentFails<V>(g: Graph<V>, xs: seq<Option<V>>, ord: seq<Name>, k: nat)
    requires Frame(g, xs, ord) && Valid(g) && k < |xs| && xs[k].None?
    ensures var u := InputNodes(g)[k]; Emitted(g, xs, ord, u) == Failure(SourceWithoutInput(u))
    ensures !AllRunsSucceed(g, xs, ord)
  {
    var u := InputNodes(g)[k];
    assert IndexOf(InputNodes(g), u) == k;
    DegreeZero(g);
    assert InDegree(g, u) == 0;
  }

  /** The values on the in-edges of output node `o`, in in-edge order. */
  ghost function OutputValues<V>(g: Graph<V>, xs: seq<Option<V>>, ord: seq<Name>, o: Name): (r: seq<V>)
    requires Frame(g, xs, ord) && Valid(g) && AllRunsSucceed(g, xs, ord)
    ensures |r| == InDegree(g, o)
  {
    seq(InDegree(g, o), i requires 0 <= i < InDegree(g, o) =>
      ProducersRun(g, InEdges(g, o)[i]);
      EdgeValue(g, xs, ord, InEdges(g, o)[i]))
  }

  /** The result of the reference pass: one entry per output node, in output order. */
  ghost function ReferenceOutputs<V>(g: Graph<V>, xs: seq<Option<V>>, ord: seq<Name>): (r: Packed<Packed<V>>)
    requires Frame(g, xs, ord) && Valid(g) && AllRunsSucceed(g, xs, ord)
    ensures r.One? <==> |OutputNodes(g)| == 1
    ensures |ToIterable(r)| == |OutputNodes(g)|
    ensures forall k | 0 <= k < |OutputNodes(g)| ::
      ToIterable(ToIterable(r)[k]) == OutputValues(g, xs, ord, OutputNodes(g)[k])
  {
    var outs := OutputNodes(g);
    FromIterable(seq(|outs|, k requires 0 <= k < |outs| => FromIterable(OutputValues(g, xs, ord, outs[k]))))
  }

  lemma {:induction false} EmittedOrderFree<V>(g: Graph<V>, xs: seq<Option<V>>, o1: seq<Name>, o2: seq<Name>, u: Name)
    requires Frame(g, xs, o1) && Frame(g, xs, o2) && u in g.nodes
    ensures Emitted(g, xs, o1, u) == Emitted(g, xs, o2, u)
    decreases IndexOf(o1, u), 1, 0
  {
    InputsOrderFree(g, xs, o1, o2, u);
  }

  lemma {:induction false} InputsOrderFree<V>(g: Graph<V>, xs: seq<Option<V>>, o1: seq<Name>, o2: seq<Name>, u: Name)
    requires Frame(g, xs, o1) && Frame(g, xs, o2) && u in g.nodes
    ensures Inputs(g, xs, o1, u) == Inputs(g, xs, o2, u)
    decreases IndexOf(o1, u), 0, InDegree(g, u) + 1
  {
    if Argument(g, xs, u).None? && InDegree(g, u) > 0 {
      CollectOrderFree(g, xs, o1, o2, u, InEdges(g, u));
    }
  }

  lemma {:induction false} CollectOrderFree<V>(g: Graph<V>, xs: seq<Option<V>>, o1: seq<Name>, o2: seq<Name>, u: Name, es: seq<Edge>)
    requires Frame(g, xs, o1) && Frame(g, xs, o2) && u in g.nodes
    requires forall e | e in es :: e in g.edges && e.dst == u
    ensures Collect(g, xs, o1, u, es) == Collect(g, xs, o2, u, es)
    decreases IndexOf(o1, u), 0, |es|
  {
    if es != [] {
      PredecessorEarlier(g, o1, es[0]);
      EmittedOrderFree(g, xs, o1, o2, es[0].src);
      CollectOrderFree(g, xs, o1, o2, u, es[1..]);
    }
  }

  /**
   * The reference pass gives the same verdict and the same result whichever
   * topological order it follows.
   */
  lemma ReferenceOrderFree<V>(g: Graph<V>, xs: seq<Option<V>>, o1: seq<Name>, o2: seq<Name>)
    requires Frame(g, xs, o1) && Frame(g, xs, o2)
    ensures AllRunsSucceed(g, xs, o1) <==> AllRunsSucceed(g, xs, o2)
    ensures Valid(g) && AllRunsSucceed(g, xs, o1) ==>
      ReferenceOutputs(g, xs, o1) == ReferenceOutputs(g, xs, o2)
  {
    forall u | u in g.nodes
      ensures Emitted(g, xs, o1, u) == Emitted(g, xs, o2, u)
    {
      EmittedOrderFree(g, xs, o1, o2, u);
    }
    if Valid(g) && AllRunsSucceed(g, xs, o1) {
      OutputsOrderFree(g, xs, o1, o2);
    }
  }

  /** Two orders along which every node emits the same give the same result. */
  lemma OutputsOrderFree<V>(g: Graph<V>, xs: seq<Option<V>>, o1: seq<Name>, o2: seq<Name>)
    requires Frame(g, xs, o1) && Frame(g, xs, o2) && Valid(g)
    requires AllRunsSucceed(g, xs, o1) && AllRunsSucceed(g, xs, o2)
    requires forall u | u in g.nodes :: Emitted(g, xs, o1, u) == Emitted(g, xs, o2, u)
    ensures ReferenceOutputs(g, xs, o1) == ReferenceOutputs(g, xs, o2)
  {
    var outs := OutputNodes(g);
    forall k | 0 <= k < |outs|
      ensures OutputValues(g, xs, o1, outs[k]) == OutputValues(g, xs, o2, outs[k])
    {
      var o := outs[k];
      forall i | 0 <= i < InDegree(g, o)
        ensures EdgeValue(g, xs, o1, InEdges(g, o)[i]) == EdgeValue(g, xs, o2, InEdges(g, o)[i])
      {
        ProducersRun(g, InEdges(g, o)[i]);
      }
    }
  }
}

=== FILE: seqs.dfy ===
/** Order-preserving sequence helpers: filtering, subsequences, positions. */
module Seqs {

  ghost predicate Distinct<T>(s: seq<T>) {
    forall i, j | 0 <= i < j < |s| :: s[i] != s[j]
  }

  /** `r` is obtained from `s` by dropping elements, keeping the order of the rest. */
  ghost predicate IsSubsequence<T>(r: seq<T>, s: seq<T>)
    decreases |s|
  {
    if r == [] then true
    else if s == [] then false
    else (r[0] == s[0] && IsSubsequence(r[1..], s[1..])) || IsSubsequence(r, s[1..])
  }

  /** The elements of `s` satisfying `p`, in their order in `s` (a list comprehension with a guard). */
  function Filter<T(!new)>(p: T -> bool, s: seq<T>): (r: seq<T>)
    ensures forall x :: x in r <==> x in s && p(x)
    ensures IsSubsequence(r, s)
  {
    if s == [] then []
    else if p(s[0]) then [s[0]] + Filter(p, s[1..])
    else Filter(p, s[1..])
  }

  /** Filtering a prefix gives a prefix of the filtered whole. */
  lemma {:induction false} FilterPrefix<T(!new)>(p: T -> bool, s: seq<T>, i: nat)
    requires i <= |s|
    ensures Filter(p, s[..i]) <= Filter(p, s)
    decreases |s|
  {
    if i > 0 {
      assert s[..i][0] == s[0] && s[..i][1..] == s[1..][..i - 1];
      FilterPrefix(p, s[1..], i - 1);
    }
  }

  /** A prefix of `a` is a prefix of `a + b`, and `a + t` is a prefix of `a + b` when `t` is one of `b`. */
  lemma PrefixOfConcat<T>(s: seq<T>, a: seq<T>, t: seq<T>, b: seq<T>)
    ensures s <= a ==> s <= a + b
    ensures t <= b ==> a + t <= a + b
  {
    if s <= a {
      assert s == (a + b)[..|s|];
    }
    if t <= b {
      assert a + t == (a + b)[..|a| + |t|];
    }
  }

  /** Position of the first occurrence of `x` in `s`. */
  function IndexOf<T(==)>(s: seq<T>, x: T): (i: nat)
    requires x in s
    ensures i < |s| && s[i] == x
    ensures forall j | 0 <= j < i :: s[j] != x
  {
    if s[0] == x then 0 else 1 + IndexOf(s[1..], x)
  }

  /** Proof helper: `p` holds before position `i` when it holds at the head and before `i - 1` in the tail. */
  lemma AllBeforeCons<T>(s: seq<T>, p: T -> bool, i: nat)
    requires 1 <= i <= |s| && p(s[0])
    requires forall j | 0 <= j < i - 1 :: p(s[1..][j])
    ensures forall j | 0 <= j < i :: p(s[j])
  {
    forall j | 1 <= j < i
      ensures p(s[j])
    {
      assert s[j] == s[1..][j - 1];
    }
  }

  /** A sequence without repetitions has as many elements as its set of members. */
  lemma {:induction false} DistinctCard<T>(s: seq<T>)
    requires Distinct(s)
    ensures |set x | x in s| == |s|
    decreases |s|
  {
    if s != [] {
      DistinctCons(s);
      DistinctCard(s[1..]);
      assert (set x | x in s) == (set x | x in s[1..]) + {s[0]};
    }
  }

  function RemoveAt<T>(s: seq<T>, i: nat): (r: seq<T>)
    requires i < |s|
    ensures |r| == |s| - 1
  {
    s[..i] + s[i + 1..]
  }

  /**
   * `s` followed by each element of `xs` that is not yet present, in the order
   * of `xs`: inserting into an ordered collection without duplicates.
   */
  function AppendNew<T(==)>(s: seq<T>, xs: seq<T>): (r: seq<T>)
    ensures s <= r
    decreases |xs|
  {
    if xs == [] then s
    else AppendNew(if xs[0] in s then s else s + [xs[0]], xs[1..])
  }

  /** After the insertions, an element is present exactly when it was already, or was inserted. */
  lemma {:induction false} AppendNewMembers<T>(s: seq<T>, xs: seq<T>, x: T)
    ensures x in AppendNew(s, xs) <==> x in s || x in xs
    decreases |xs|
  {
    if xs != [] {
      AppendNewMembers(if xs[0] in s then s else s + [xs[0]], xs[1..], x);
      assert x in xs <==> x == xs[0] || x in xs[1..];
    }
  }

  /** Inserting `x` and then `xs` is inserting `[x] + xs`. */
  lemma AppendNewCons<T(!new)>(s: seq<T>, x: T, xs: seq<T>)
    ensures AppendNew(s, [x] + xs) == AppendNew(AppendNew(s, [x]), xs)
  {
    assert ([x] + xs)[1..] == xs;
    assert AppendNew(s, [x]) == if x in s then s else s + [x];
  }

  function Last<T>(s: seq<T>): T
    requires s != []
  {
    s[|s| - 1]
  }

  lemma DistinctCons<T>(s: seq<T>)
    requires s != []
    ensures Distinct(s) <==> s[0] !in s[1..] && Distinct(s[1..])
  {
    if s[0] !in s[1..] && Distinct(s[1..]) {
      forall i, j | 0 <= i < j < |s|
        ensures s[i] != s[j]
      {
        if i == 0 {
          assert s[j] == s[1..][j - 1];
        } else {
          assert s[i] == s[1..][i - 1] && s[j] == s[1..][j - 1];
        }
      }
    }
  }

  lemma {:induction false} SubsequenceMembers<T>(r: seq<T>, s: seq<T>)
    requires IsSubsequence(r, s)
    ensures forall x | x in r :: x in s
    decreases |s|
  {
    if r != [] {
      assert s != [];
      if r[0] == s[0] && IsSubsequence(r[1..], s[1..]) {
        SubsequenceMembers(r[1..], s[1..]);
        forall x | x in r
          ensures x in s
        {
          if x != r[0] {
            assert x in r[1..];
          }
        }
      } else {
        SubsequenceMembers(r, s[1..]);
      }
    }
  }

  /** A subsequence of a duplicate-free sequence is duplicate-free. */
  lemma {:induction false} SubsequenceDistinct<T>(r: seq<T>, s: seq<T>)
    requires IsSubsequence(r, s) && Distinct(s)
    ensures Distinct(r)
    decreases |s|
  {
    if r != [] {
      DistinctCons(s);
      DistinctCons(r);
      if r[0] == s[0] && IsSubsequence(r[1..], s[1..]) {
        SubsequenceDistinct(r[1..], s[1..]);
        SubsequenceMembers(r[1..], s[1..]);
      } else {
        SubsequenceDistinct(r, s[1..]);
      }
    }
  }

  lemma {:induction false} FilterSnoc<T(!new)>(p: T -> bool, s: seq<T>, x: T)
    ensures Filter(p, s + [x]) == Filter(p, s) + (if p(x) then [x] else [])
    decreases |s|
  {
    if s == [] {
      assert [x][1..] == [];
    } else {
      assert (s + [x])[0] == s[0];
      assert (s + [x])[1..] == s[1..] + [x];
      FilterSnoc(p, s[1..], x);
    }
  }

  lemma RemoveAtMembers<T>(s: seq<T>, i: nat)
    requires i < |s| && Distinct(s)
    ensures forall x :: x in RemoveAt(s, i) <==> x in s && x != s[i]
    ensures Distinct(RemoveAt(s, i))
  {
    var r := RemoveAt(s, i);
    forall x
      ensures x in r <==> x in s && x != s[i]
    {
      if x in r {
        var k :| 0 <= k < |r| && r[k] == x;
        if k < i { assert r[k] == s[k]; } else { assert r[k] == s[k + 1]; }
      }
      if x in s && x != s[i] {
        var k :| 0 <= k < |s| && s[k] == x;
        if k < i { assert r[k] == x; } else { assert r[k - 1] == x; }
      }
    }
    forall a, b | 0 <= a < b < |r|
      ensures r[a] != r[b]
    {
      var a' := if a < i then a else a + 1;
      var b' := if b < i then b else b + 1;
      assert r[a] == s[a'] && r[b] == s[b'];
    }
  }
}

=== FILE: topology.dfy ===
/**
 * Topological orders and the acyclicity test. The graph library's DAG test is
 * modelled by `IsDirectedAcyclic`, which repeatedly peels off a node without
 * predecessors; it is proved to agree with "some topological order exists".
 */
module Topology {
  import opened Wrappers
  import opened Seqs
  import opened Digraph

  /** Every edge between two entries of `s` goes from an earlier entry to a later one. */
  ghost predicate EdgesForward(edges: seq<Edge>, s: seq<Name>) {
    forall i, j | 0 <= i < |s| && 0 <= j < |s| && Edge(s[i], s[j]) in edges :: i < j
  }

  /** `o` lists every name of `names` exactly once, and every edge among them points forward. */
  ghost predicate IsOrderOf(edges: seq<Edge>, names: seq<Name>, o: seq<Name>) {
    && Distinct(o)
    && (forall n :: n in o <==> n in names)
    && EdgesForward(edges, o)
  }

  /** A permutation of the nodes in which the source of every edge precedes its target. */
  ghost predicate IsTopologicalOrder<V>(g: Graph<V>, o: seq<Name>) {
    IsOrderOf(g.edges, g.nodes, o)
  }

  ghost predicate Acyclic<V>(g: Graph<V>) {
    exists o :: IsTopologicalOrder(g, o)
  }

  /** Dropping entries from a sequence keeps its edges pointing forward. */
  lemma {:induction false} FilterEdgesForward(p: Name -> bool, edges: seq<Edge>, s: seq<Name>)
    requires EdgesForward(edges, s)
    ensures EdgesForward(edges, Filter(p, s))
    decreases |s|
  {
    if s != [] {
      var t := s[1..];
      assert EdgesForward(edges, t) by {
        forall i, j | 0 <= i < |t| && 0 <= j < |t| && Edge(t[i], t[j]) in edges
          ensures i < j
        {
          assert t[i] == s[i + 1] && t[j] == s[j + 1];
        }
      }
      FilterEdgesForward(p, edges, t);
      if p(s[0]) {
        var f := Filter(p, t);
        var r := Filter(p, s);
        assert r == [s[0]] + f;
        assert Edge(s[0], s[0]) !in edges;
        forall x | x in t
          ensures Edge(x, s[0]) !in edges
        {
          var k :| 0 <= k < |t| && t[k] == x;
          assert s[k + 1] == x;
        }
        forall i, j | 0 <= i < |r| && 0 <= j < |r| && Edge(r[i], r[j]) in edges
          ensures i < j
        {
          if 0 < i && 0 < j {
            assert r[i] == f[i - 1] && r[j] == f[j - 1];
          }
        }
      }
    }
  }

  /** Some entry of `rest` has an edge into `x`. */
  predicate HasPredecessorIn(edges: seq<Edge>, rest: seq<Name>, x: Name) {
    exists e | e in edges :: e.dst == x && e.src in rest
  }

  /** The first position from `k` on whose name has no predecessor within `rest`. */
  function FirstSource(edges: seq<Edge>, rest: seq<Name>, k: nat): (r: Option<nat>)
    requires k <= |rest|
    ensures r.Some? ==> k <= r.value < |rest| && !HasPredecessorIn(edges, rest, rest[r.value])
    ensures r.None? ==> forall i | k <= i < |rest| :: HasPredecessorIn(edges, rest, rest[i])
    decreases |rest| - k
  {
    if k == |rest| then None
    else if !HasPredecessorIn(edges, rest, rest[k]) then Some(k)
    else FirstSource(edges, rest, k + 1)
  }

  /** If every name of a non-empty `rest` has a predecessor in `rest`, no order of `rest` exists. */
  lemma NoSourceNoOrder(edges: seq<Edge>, rest: seq<Name>, o: seq<Name>)
    requires rest != []
    requires forall i | 0 <= i < |rest| :: HasPredecessorIn(edges, rest, rest[i])
    ensures !IsOrderOf(edges, rest, o)
  {
    if Distinct(o) && (forall n :: n in o <==> n in rest) {
      assert rest[0] in o;
      var x := o[0];
      var k := IndexOf(rest, x);
      assert HasPredecessorIn(edges, rest, rest[k]);
      var e :| e in edges && e.dst == x && e.src in rest;
      var j := IndexOf(o, e.src);
      assert Edge(o[j], o[0]) in edges && !(j < 0);
    }
  }

  /** An order of `rest` with the entry at `i` removed is an order of the remaining names. */
  lemma OrderWithout(edges: seq<Edge>, rest: seq<Name>, i: nat)
    requires Distinct(rest) && i < |rest|
    ensures forall o | IsOrderOf(edges, rest, o) ::
      IsOrderOf(edges, RemoveAt(rest, i), Filter((n: Name) => n != rest[i], o))
  {
    RemoveAtMembers(rest, i);
    forall o | IsOrderOf(edges, rest, o)
      ensures IsOrderOf(edges, RemoveAt(rest, i), Filter((n: Name) => n != rest[i], o))
    {
      var p := (n: Name) => n != rest[i];
      SubsequenceDistinct(Filter(p, o), o);
      FilterEdgesForward(p, edges, o);
    }
  }

  /** Putting a name without predecessors in front of an order of the other names orders them all. */
  lemma PeelStep(edges: seq<Edge>, rest: seq<Name>, i: nat, o: seq<Name>)
    requires Distinct(rest) && i < |rest|
    requires !HasPredecessorIn(edges, rest, rest[i])
    requires IsOrderOf(edges, RemoveAt(rest, i), o)
    ensures IsOrderOf(edges, rest, [rest[i]] + o)
  {
    RemoveAtMembers(rest, i);
    var x := rest[i];
    var r := [x] + o;
    assert x !in o;
    DistinctCons(r);
    assert r[1..] == o;
    assert Edge(x, x) !in edges by {
      assert x in rest;
    }
    forall y | y in o
      ensures Edge(y, x) !in edges
    {
      assert y in rest;
    }
    forall a, b | 0 <= a < |r| && 0 <= b < |r| && Edge(r[a], r[b]) in edges
      ensures a < b
    {
      if 0 < a && 0 < b {
        assert r[a] == o[a - 1] && r[b] == o[b - 1];
      }
    }
  }

  /** Peels sources off `rest` one at a time; fails exactly when `rest` admits no order. */
  function PeelOrder(edges: seq<Edge>, rest: seq<Name>): (r: Option<seq<Name>>)
    requires Distinct(rest)
    ensures r.Some? ==> IsOrderOf(edges, rest, r.value)
    ensures r.None? ==> forall o :: !IsOrderOf(edges, rest, o)
    decreases |rest|
  {
    if rest == [] then
      assert IsOrderOf(edges, rest, []);
      Some([])
    else
      match FirstSource(edges, rest, 0)
      case None =>
        assert forall o :: !IsOrderOf(edges, rest, o) by {
          forall o
            ensures !IsOrderOf(edges, rest, o)
          {
            NoSourceNoOrder(edges, rest, o);
          }
        }
        None
      case Some(i) =>
        RemoveAtMembers(rest, i);
        match PeelOrder(edges, RemoveAt(rest, i))
        case None =>
          OrderWithout(edges, rest, i);
          None
        case Some(o) =>
          PeelStep(edges, rest, i, o);
          Some([rest[i]] + o)
  }

  /** The DAG test: true exactly when the graph has a topological order. */
  function IsDirectedAcyclic<V>(g: Graph<V>): (b: bool)
    requires WellFormed(g)
    ensures b <==> Acyclic(g)
  {
    match PeelOrder(g.edges, g.nodes)
    case Some(o) =>
      assert IsTopologicalOrder(g, o);
      true
    case None => false
  }

  /** An edge can only destroy acyclicity: a graph whose extension is acyclic is acyclic. */
  lemma AcyclicWithoutEdge<V>(g: Graph<V>, e: Edge)
    requires WellFormed(g) && e.src in g.nodes && e.dst in g.nodes
    ensures Acyclic(InsertEdge(g, e)) ==> Acyclic(g)
  {
    var g' := InsertEdge(g, e);
    if Acyclic(g') {
      var o :| IsTopologicalOrder(g', o);
      assert IsTopologicalOrder(g, o);
    }
  }
}

=== FILE: wrappers.dfy ===
/** Failure-compatible wrappers used throughout the model. */
module Wrappers {

  datatype Option<+T> = None | Some(value: T)

  /** A value or the error a call raised; usable with `:-`. */
  datatype Result<+T, +E> = Success(value: T) | Failure(error: E) {
    predicate IsFailure() {
      Failure?
    }

    function PropagateFailure<U>(): Result<U, E>
      requires Failure?
    {
      Failure(error)
    }

    function Extract(): T
      requires Success?
    {
      value
    }
  }

  /** The outcome of a check that either passes or reports an error. */
  datatype Outcome<+E> = Pass | Fail(error: E)
}
